=== FILE: README.md ===
# Dushnilla bot core, modelled in Dafny

This project models the deterministic core of a Telegram chat bot ("Душнилла")
that answers through an OpenAI chat model and prepares a retrieval knowledge
base from office documents. Five pieces are modelled, each as pure functions
over sequences and maps (plus two methods for the two loops of the chat
functions), and their properties are proved:

- **Text chunkers and splitters** (`splitter.dfy`, `outgoing.dfy`,
  `char_chunks.dfy`, `word_chunks.dfy`):
  - `split_text`: a concrete boundary splitter for the pattern
    `(\n\n|\.\s|\?\s|\!\s)` and the greedy packing loop;
  - the code-fence alternation of `process_and_send_mess`;
  - the overlapping character windows of the document parser's `chunk_text`;
  - the 900-word blocks of the index builder's `chunk_text`.
- **Token estimate** (`tokens.dfy`, `messages.dfy`): `num_tokens_from_messages`
  over an abstract encoder length `encLen`, on messages modelled as ordered
  key/value lists.
- **Conversation store and turn preparation** (`session.dfy`):
  - the pointer and history files are two maps;
  - `read_existing_conversation`;
  - the rollover loop of `start_and_check` (a method with a termination proof);
  - the summary write of `over_token`;
  - the retry loop of `get_openai_response` (a method), with the language model
    as an oracle.
- **Message gating** (`gating.dfy`): the ignore rules, the trigger-word test and
  the trigger stripping of `universal_handler`. This includes the early `break`:
  only a leading "душнилла" is ever removed. A group message that is just
  "душ" is passed on as "душ", not as the greeting.
- **Document records** (`documents.dfy`, `word_chunks.dfy`):
  - the extension filter of `iter_files`;
  - the PDF, DOCX, PPTX and XLSX record builders over the text their libraries
    extract;
  - the dispatch loop of the parser's `main`;
  - the chunk records of the index builder.

Shared Python string primitives live in `text.dfy`:
- `str.isspace` (also what `\s` matches);
- `strip`, `lower`, substring `in`;
- `join`, `split(sep)`, `split()`;
- `str(int)`.

`common.dfy` holds `Option`, `Result` and sequence concatenation.

## Model

| member | source | states |
|---|---|---|
| Text.Strip | src/handlers/handlers.py:32 | the stripped text has no whitespace at either end and is empty exactly when the input is whitespace-only |
| Text.StripSplits | src/handlers/handlers.py:32 | `strip()` removes only a whitespace prefix and a whitespace suffix: the input is that prefix, the result and that suffix |
| Text.SplitOn | src/functions/chat_func.py:73 | `split(sep)` gives at least one piece, no piece contains the separator, and joining the pieces with the separator gives the text back |
| Text.Words | src/rag/build_faiss.py:14 | every element `split()` yields is a non-empty run of non-whitespace characters; with Text.WordsAtSpace and Text.WordsOfWord this determines the result |
| Text.WordsAtSpace | src/rag/build_faiss.py:14 | `split()` cuts at every whitespace character: the words of `a + [c] + b` for a whitespace `c` are the words of `a` followed by the words of `b` |
| Text.WordsOfWord | src/rag/build_faiss.py:14 | a non-empty run of non-whitespace characters is split into exactly itself |
| Text.WordsOfJoin | src/rag/build_faiss.py:16 | splitting words joined by single spaces gives exactly those words back |
| Text.IntToDecimal | src/functions/chat_func.py:61 | the decimal spelling of an integer is a non-empty digit string that denotes it, with no leading zero except for "0" itself, and with a minus sign before the digits of its magnitude for negatives |
| Messages.ChatFields | src/functions/chat_func.py:28 | a `{"role", "content"}` message reads back the role and the content it was built with |
| Messages.SysMessShape | src/utils/utils.py:34-50 | the seed history holds exactly one message, with role "system" |
| Tokens.NumTokens | src/utils/utils.py:118-129 | the estimate of an empty message list is the reply primer, 3 |
| Tokens.NumTokensAppend | src/utils/utils.py:119-128 | the estimate is additive: count(a + b) = count(a) + count(b) - 3 |
| Tokens.MessageCostAtLeast | src/utils/utils.py:120-127 | a message with distinct keys costs at least 3 tokens, because only one `name` key can be subtracted |
| Tokens.AppendRaises | src/utils/utils.py:119-128 | appending any message raises the estimate by at least 3 |
| Tokens.AppendChat | src/utils/utils.py:120-123 | appending a role/content message adds 4 plus the encoded lengths of the role and the content |
| Session.ReadExisting | src/utils/utils.py:90-109 | a missing or unreadable pointer gives session 1 and persists it, otherwise the stored number is used; a missing history file is created holding the seed history; the prompt is the file's messages, or the seed history when the key is absent; opening fails exactly when the current session's own file is corrupt, and the error names that file; on that error the store carries the pointer written so far; other chats' files are untouched |
| Session.ReadExistingStable | src/utils/utils.py:90-109 | opening a conversation a second time finds the state the first opening left |
| Session.PersistThenRead | src/utils/utils.py:100-108 | a prompt written to the current session's file is the prompt read back |
| Session.SummaryInput | src/functions/chat_func.py:16-18 | the summariser sees the prompt with the summary request appended, cut to its first 10 messages |
| Session.SummaryRequestDropped | src/functions/chat_func.py:16-18 | with 10 or more messages already in the prompt, the summary request never reaches the summariser |
| Session.OverToken | src/functions/chat_func.py:14-24 | on a summary, the file holds exactly the seed history plus one system message starting with the summary prefix; on failure nothing is written; pointers and other files are unchanged |
| Session.Rollover | src/functions/chat_func.py:32-38 | one rollover raises the session number by exactly 1, writes the summary into the OLD file, and reopens a prompt that ends with the user message; a fresh session's prompt is the seed history plus the user message; an existing next-session file is reused unchanged, its messages plus the user message becoming the prompt, and the rollover fails exactly when that file is corrupt; a failed summary leaves the old file as it was; on an error the store already holds the bumped pointer and whatever the summary wrote |
| Session.RolloverDecreases | src/functions/chat_func.py:30-40 | while the prompt is over budget and a fresh session's prompt fits, each rollover lowers the loop measure |
| Session.Rollovers | src/functions/chat_func.py:30-40 | after `n` rollovers from an opened conversation the session number has risen by exactly `n` and the current session's file exists |
| Session.StartAndCheck | src/functions/chat_func.py:26-41 | a corrupt history file at opening is returned as that error; otherwise the result, success or error, is the opening followed by some number of rollovers each of which started from an over-budget prompt, so an error can only come from a later corrupt file; on success that number is the least after which the prompt is within 127000 tokens (none when the opened prompt already fits); the prompt ends with the user message, is the current session's stored history plus that message, and the session number never went down |
| Session.RolloverForever | src/functions/chat_func.py:30-40 | when a fresh session's prompt is itself over budget and no later file exists, every number of rollovers succeeds and, once at least one has happened, leaves an over-budget prompt; if the opened prompt is over budget too, every prompt the loop tests is over budget, so the loop never ends |
| Session.Render | src/functions/chat_func.py:59-69 | an answer starts with the reply text and ends with the tokens-left note, and can never equal either fixed text; the connection text is sent exactly on the connection give-up |
| Session.RenderAnswer | src/functions/chat_func.py:59-61 | an answer starts with the reply text and ends with the tokens-left note |
| Session.Failures | src/functions/chat_func.py:44-66 | counts the leading connection errors, at most 5; the attempt after them is not a connection error |
| Session.GetOpenAIResponse | src/functions/chat_func.py:43-69 | a connection error is retried, for at most 5 attempts in all, and then the fixed connection text is returned; any other error returns the apology at once; a reply is appended and the whole prompt persisted, with tokens left = 128000 - usage; nothing is written unless there is an answer |
| Splitter.SentenceParts | src/utils/utils.py:135 | the capturing split alternates boundary-free pieces with the two-character boundaries and concatenates to the text |
| Splitter.PackFrom | src/utils/utils.py:136-143 | the groups are consecutive runs of the parts and concatenate to them; a group is shorter than the limit unless it is a single part; a group is closed only when its next part would reach the limit |
| Splitter.GroupsProperties | src/utils/utils.py:135-145 | the unstripped groups put together give the text; size bound and greedy closing, stated on the groups of a text |
| Splitter.Bodies | src/utils/utils.py:141-145 | every piece body is non-empty and already stripped, and the bodies are exactly the stripped non-blank groups |
| Splitter.BodiesAppend | src/utils/utils.py:141-145 | bodies keep group order: the bodies of two runs of groups are the bodies of each in turn |
| Splitter.SplitText | src/utils/utils.py:131-145 | text within the limit gives exactly `prefix + text + suffix`, unstripped; longer text gives pieces that are the prefix, a stripped non-empty body and the suffix |
| Splitter.BlankGroupsNoBodies | src/utils/utils.py:141-145 | whitespace-only groups yield no piece |
| Splitter.SplitTextLong | src/utils/utils.py:135-145 | over the limit, the pieces are the wrapped stripped non-blank groups, and the groups concatenate to the text |
| Outgoing.SegmentMessages | src/functions/chat_func.py:75-84 | messages of a code segment start with the opening fence and a newline and end with a newline and the closing fence |
| Outgoing.OutgoingMessages | src/functions/chat_func.py:71-89 | the messages of a reply start with the prose before its first fence, split at 4096 characters whatever limit is passed |
| Outgoing.PlainReply | src/functions/chat_func.py:71-82 | a reply without fences is split as prose only, at 4096 characters, whatever limit the caller passes |
| Outgoing.OneCodeBlock | src/functions/chat_func.py:73-89 | a reply with one code block is sent as the prose before it, the re-fenced code and the prose after it, in that order |
| Outgoing.LeadingFenceSendsEmpty | src/functions/chat_func.py:73-81 | a reply that opens with a fence sends an empty prose message first |
| Gating.RemoveLeading | src/handlers/handlers.py:50 | a leading trigger in any letter case is removed together with the separator run after it; what is left does not start with a separator; text not starting with the trigger is unchanged |
| Gating.Gate | src/handlers/handlers.py:24-54 | an answered text is never empty |
| Gating.GateResponds | src/handlers/handlers.py:24-44 | the bot answers exactly when the message is not its own, the allow-list is empty or holds the chat, the text is not blank, and the chat is private or a trigger word occurs in the lower-cased text |
| Gating.GatePrivate | src/handlers/handlers.py:47-48 | in a private chat the stripped text is passed on unchanged |
| Gating.StripLoopFirst | src/handlers/handlers.py:48-52 | the stripping loop has the effect of trying only the first trigger, because it breaks on the first non-empty result |
| Gating.GateGroup | src/handlers/handlers.py:46-54 | in a group the answered text is the message with a leading "душнилла" removed, or the greeting when nothing is left |
| Gating.GateGroupKeeps | src/handlers/handlers.py:48-52 | a group message not starting with "душнилла" is passed on whole, even when it starts with another trigger |
| Gating.GateTriggerOnly | src/handlers/handlers.py:53-54 | a group message that is "душнилла" in any letter case is answered with the fixed greeting |
| CharChunks.ChunkText | src/rag/parse_docs.py:32-53 | missing or blank text gives no chunk; text within one window gives exactly the stripped text; no chunk is longer than the window |
| CharChunks.ChunkTextWindows | src/rag/parse_docs.py:41-53 | over a longer text there are exactly `1 + ceil((L - M) / (M - O))` chunks, and chunk `i` is the stripped `i`-th window |
| CharChunks.WindowsFromShape | src/rag/parse_docs.py:45-51 | from window `k` on, the loop yields windows `k`, `k+1`, ... up to the first window that reaches the end |
| CharChunks.CountAtStop | src/rag/parse_docs.py:49-50 | the loop stops at window `k` exactly when `k + 1` is the window count |
| CharChunks.WindowsOverlap | src/rag/parse_docs.py:51 | consecutive windows share exactly `overlap` characters |
| CharChunks.LastWindowReachesEnd | src/rag/parse_docs.py:49-50 | the last window ends at the end of the text |
| CharChunks.WindowsCover | src/rag/parse_docs.py:45-51 | every character of the text lies in some window |
| Documents.Suffix | src/rag/parse_docs.py:27 | a suffix is empty or a dot, at least one more character and no further dot, ending the name and not starting it |
| Documents.SuffixOf | src/rag/parse_docs.py:27 | a non-empty stem followed by a dot-free extension has exactly that extension as its suffix |
| Documents.SupportedExtension | src/rag/parse_docs.py:22-28 | such a file is picked up exactly when its lower-cased extension is .pdf, .docx, .pptx or .xlsx |
| Documents.IterFiles | src/rag/parse_docs.py:20-29 | a file is kept exactly when it is among the walked files and its suffix is supported |
| Documents.IterFilesAppend | src/rag/parse_docs.py:24-28 | kept files follow walk order, repeats included: the files kept from two runs are those of each in turn |
| Documents.PdfRecords | src/rag/parse_docs.py:56-78 | every record carries the file's path and name and an empty section; its page is between 1 and the page count; pages never go back; for every page `p` the texts of the records numbered `p` are exactly the chunks of the `p`-th page, in order |
| Documents.PdfBlankPage | src/rag/parse_docs.py:62-65 | a blank page adds no record |
| Documents.TextParagraphs | src/rag/parse_docs.py:86 | the kept paragraphs are exactly the non-blank ones, at most one per paragraph |
| Documents.TextParagraphsAppend | src/rag/parse_docs.py:86 | kept paragraphs follow document order, repeats included: the kept paragraphs of two runs are those of each in turn |
| Documents.DocxRecords | src/rag/parse_docs.py:81-99 | every record carries the file's path and name, no page and an empty section; the texts of the records are, in order, the chunks of the non-blank paragraphs joined by newlines |
| Documents.DocxBlank | src/rag/parse_docs.py:86-89 | a document of blank paragraphs gives no record |
| Documents.SlideTexts | src/rag/parse_docs.py:108-113 | the shape texts kept are non-empty and stripped, at most one per shape, and they are exactly the stripped texts of the shapes that have a non-blank text |
| Documents.SlideTextsAppend | src/rag/parse_docs.py:109-113 | kept texts follow shape order: the texts of two runs of shapes are those of each in turn |
| Documents.SlideRecords | src/rag/parse_docs.py:114-126 | every record of a slide carries the file's path and name, that slide's number and an empty section; their texts are, in order, the chunks of the slide's kept texts joined by newlines, and a slide without kept text has none |
| Documents.PptxRecords | src/rag/parse_docs.py:102-127 | records carry the file's path and name, an empty section and 1-based slide numbers within the slide count, in slide order; for every slide `p` the texts of the records numbered `p` are exactly the chunks of that slide's joined texts, in order |
| Documents.PptxTextlessSlide | src/rag/parse_docs.py:114-115 | a slide none of whose shapes holds text adds no record |
| Documents.RowValues | src/rag/parse_docs.py:139 | a row has no values exactly when all its cells are `None` or `""`; the values are exactly the stripped texts of the kept cells |
| Documents.RowValuesAppend | src/rag/parse_docs.py:139 | values keep column order: the values of two runs of cells are those of each in turn |
| Documents.RowsText | src/rag/parse_docs.py:138-141 | a sheet has no row text exactly when none of its rows has a value; with Documents.RowsTextLines and Documents.RowsTextAppend this determines the lines |
| Documents.RowsTextLines | src/rag/parse_docs.py:138-141 | the lines are exactly the values of the rows that keep a cell, each joined with " \| " |
| Documents.RowsTextAppend | src/rag/parse_docs.py:138-141 | lines keep row order: the lines of two runs of rows are those of each in turn |
| Documents.SheetText | src/rag/parse_docs.py:137-144 | a sheet is skipped exactly when no cell is kept; otherwise its text is "Лист: ", the title, a newline and the row lines joined by newlines |
| Documents.SheetRecords | src/rag/parse_docs.py:145-154 | the records of one sheet are, in order, one per chunk of its text, with the file's path and name, no page and the sheet's title as section |
| Documents.XlsxRecords | src/rag/parse_docs.py:130-158 | every record carries the file's path and name, no page, and the title of one of the sheets as its section |
| Documents.XlsxRecordsAppend | src/rag/parse_docs.py:136-154 | records follow sheet order: the records of two runs of sheets are those of each in turn |
| Documents.XlsxSheetRecords | src/rag/parse_docs.py:136-154 | inside a workbook the records of each sheet are exactly that sheet's records, between those of the sheets before and after it |
| Documents.XlsxEmptySheet | src/rag/parse_docs.py:142-143 | a sheet with no kept cell adds no record |
| Documents.Extract | src/rag/parse_docs.py:170-186 | records of a file carry its path and name; a file with an unhandled suffix gives none; each of the four lower-cased suffixes dispatches to its own builder; extraction fails exactly when a handled suffix meets content its library cannot read as that format |
| Documents.ParseAllFromFiles | src/rag/parse_docs.py:161-188 | every record comes from one of the files, with that file's path and name |
| Documents.ParseAllAppend | src/rag/parse_docs.py:170-188 | the records follow file order: parsing two lists is parsing each in turn |
| Documents.ParseAllSkipsFailure | src/rag/parse_docs.py:184-186 | a file whose extraction raises leaves the other files' records as they were |
| BuildFaiss.Blocks | src/rag/build_faiss.py:13-16 | the blocks concatenate to the words; there are `ceil(n / 900)` of them; each holds 1 to 900 words, and all but the last exactly 900 |
| BuildFaiss.ChunkText | src/rag/build_faiss.py:13-16 | the number of chunks is `ceil(n / 900)` for `n` words; whitespace-only text gives none |
| BuildFaiss.ChunkWords | src/rag/build_faiss.py:14-16 | the words of each chunk are exactly its block |
| BuildFaiss.ChunksRoundTrip | src/rag/build_faiss.py:14-16 | splitting every chunk into words and concatenating gives the words of the text |
| BuildFaiss.ChunkSizes | src/rag/build_faiss.py:10-16 | every chunk has 1 to 900 words, and all but the last exactly 900 |
| BuildFaiss.DocRecords | src/rag/build_faiss.py:31-35 | a document's records carry its source, one per chunk, in chunk order |
| BuildFaiss.BuildChunksProvenance | src/rag/build_faiss.py:27-35 | every record carries the source of a document whose chunk it holds |
| BuildFaiss.BuildChunksAppend | src/rag/build_faiss.py:30-35 | records follow document order: building over two lists is building over each in turn |

## Left out

- Telegram transport is not modelled: the client loops, the typing action, `send_message`, the sleeps and the rest of `universal_handler` after line 54. The outgoing messages are returned as a list in sending order.
- The OpenAI calls are not modelled. Completions are an oracle `complete(prompt, attempt)`, which answers `Completed`, `ConnectionError` or `OtherError`. The summariser is a function of its input. `additional_func.py` (search, image generation, image analysis, bash) is not part of this model.
- tiktoken is not modelled: `encLen` is an arbitrary function from strings to naturals, and the encoding choice (utils.py:113-116) is not modelled.
- File and JSON I/O are modelled as two maps. Writes are assumed to succeed. The code writes files in place, without write-then-rename.
- Aliasing is not modelled. `read_existing_conversation` can return the module-level `sys_mess` list itself, which `start_and_check` then appends to (utils.py:108, chat_func.py:28). The model works on values, so this hazard does not show.
- `ALLOW_USERS` is given as a set; its parsing with `eval` (utils.py:68) is not modelled.
- Logging, time zones, `terminal_html` and folder creation are not modelled.
- Module loading is not modelled: handlers.py:13 and handlers.py:57 cannot be loaded as written. The gating logic is modelled as written.
- The parsing libraries (PyMuPDF, python-docx, python-pptx, openpyxl), the directory walk, `relative_to`, the embeddings, the FAISS index and search.py are not modelled. A document is the text its library extracts, and `Unreadable` stands for a library exception. The walk's file order is taken as given.
- The parser's exit on a missing knowledge directory and its JSON output are I/O and are not modelled.
- Text.Lower: models `str.lower()` only for ASCII and the basic Cyrillic block (U+0400 to U+042F). Every other character is left unchanged.
- Gating.RemoveLeading: models the case-insensitive regex match as equality after `Lower` on each character. Python's extra case-folding equivalences are not modelled, such as "д" matching U+1C81 (ᲁ).
- Documents.Suffix: works on the file name alone, with the rule that the last dot neither starts nor ends the name. Directory parsing of paths is not modelled.
- CharChunks.ChunkText: requires `0 < maxChars` and `0 <= overlap < maxChars`. With a step that does not move forward the loop never ends, and a negative overlap leaves gaps. Only the defaults 800 and 100 are used by the code.
- Session.StartAndCheck: requires that a fresh session's prompt fits the budget. Without that the loop may never end, as Session.RolloverForever shows. The requirement also excludes some inputs on which the code does stop: a current history that already fits, or a later session file whose prompt fits. Exceptions other than a corrupt history file are not modelled.
- Session.GetOpenAIResponse: a completion without a string `content` is treated as another error (the apology). The `max_tokens` and temperature arguments are not modelled.

=== FILE: char_chunks.dfy ===
/**
 * The character-window chunker that prepares documents for retrieval
 * (`chunk_text` in the document parser): the stripped text is cut into
 * windows of `maxChars` characters that start `maxChars - overlap` apart,
 * and every window is stripped.
 */
module CharChunks {
  import opened Common
  import opened Text

  /** Default window size and overlap. */
  const MAX_CHARS: int := 800
  const OVERLAP: int := 100

  /** Window sizes the loop terminates on: a positive size and a step that moves forward. */
  predicate ValidWindow(maxChars: int, overlap: int)
  {
    0 < maxChars && 0 <= overlap < maxChars
  }

  /** Start of the `i`-th window: windows start `maxChars - overlap` apart. */
  function WStart(maxChars: int, overlap: int, i: nat): int
  {
    i * (maxChars - overlap)
  }

  /** Consecutive windows start `maxChars - overlap` apart. */
  lemma WStartNext(maxChars: int, overlap: int, k: nat)
    ensures WStart(maxChars, overlap, k + 1) == WStart(maxChars, overlap, k) + (maxChars - overlap)
  {
  }

  /** End of the `i`-th window in a text of length `len` (Python clips the slice). */
  function WEnd(len: nat, maxChars: int, overlap: int, i: nat): int
  {
    if WStart(maxChars, overlap, i) + maxChars < len then WStart(maxChars, overlap, i) + maxChars else len
  }

  /** `ceil(x / d)` for a positive divisor. */
  function CeilDiv(x: nat, d: int): nat
    requires d > 0
  {
    (x + d - 1) / d
  }

  /** The number of windows over a text longer than one window: `1 + ceil((len - M) / (M - O))`. */
  function WindowCount(len: nat, maxChars: int, overlap: int): nat
    requires ValidWindow(maxChars, overlap) && len > maxChars
  {
    1 + CeilDiv(len - maxChars, maxChars - overlap)
  }

  /** The text the chunker works on: `(text or "").strip()`. */
  function Source(text: Option<string>): string
  {
    Strip(if text.Some? then text.value else "")
  }

  /** `a * d <= b * d` for `a <= b` and non-negative `d`. */
  lemma MulMono(a: int, b: int, d: int)
    requires a <= b && d >= 0
    ensures a * d <= b * d
  {
  }

  /** The characterisation of `CeilDiv`: the least `k` with `x <= k * d`. */
  lemma CeilDivUnique(x: nat, d: int, k: nat)
    requires d > 0 && x > 0
    requires (k - 1) * d < x <= k * d
    ensures CeilDiv(x, d) == k
  {
    var q := CeilDiv(x, d);
    assert q * d <= x + d - 1 < q * d + d;
    if q < k {
      MulMono(q, k - 1, d);
      assert false;
    } else if q > k {
      MulMono(k + 1, q, d);
      assert false;
    }
  }

  /** The `i`-th window of `t`, stripped. */
  function Window(t: string, maxChars: int, overlap: int, i: nat): (c: string)
    requires ValidWindow(maxChars, overlap) && WStart(maxChars, overlap, i) < |t|
    ensures |c| <= maxChars
  {
    MulMono(0, i, maxChars - overlap);
    Strip(t[WStart(maxChars, overlap, i)..WEnd(|t|, maxChars, overlap, i)])
  }

  /** The windows of `t` from the `k`-th on, as the loop of `chunk_text` produces them. */
  function WindowsFrom(t: string, maxChars: int, overlap: int, k: nat): (cs: seq<string>)
    requires ValidWindow(maxChars, overlap) && WStart(maxChars, overlap, k) < |t|
    ensures |cs| >= 1 && cs[0] == Window(t, maxChars, overlap, k)
    ensures forall i :: 0 <= i < |cs| ==> |cs[i]| <= maxChars
    decreases |t| - WStart(maxChars, overlap, k)
  {
    var end := WStart(maxChars, overlap, k) + maxChars;
    WStartNext(maxChars, overlap, k);
    if end >= |t| then [Window(t, maxChars, overlap, k)]
    else [Window(t, maxChars, overlap, k)] + WindowsFrom(t, maxChars, overlap, k + 1)
  }

  /**
   * `chunk_text(text, maxChars, overlap)`: nothing for blank text, the whole
   * stripped text when it fits one window, and otherwise the stripped
   * windows in order.
   */
  function ChunkText(text: Option<string>, maxChars: int, overlap: int): (chunks: seq<string>)
    requires ValidWindow(maxChars, overlap)
    ensures Source(text) == [] ==> chunks == []
    ensures Source(text) != [] && |Source(text)| <= maxChars ==> chunks == [Source(text)]
    ensures forall i :: 0 <= i < |chunks| ==> |chunks[i]| <= maxChars
  {
    var t := Source(text);
    if t == [] then []
    else if |t| <= maxChars then [t]
    else WindowsFrom(t, maxChars, overlap, 0)
  }

  /**
   * Over a text longer than one window, `chunk_text` yields exactly
   * `WindowCount` chunks, and the `i`-th is the `i`-th window stripped.
   */
  lemma ChunkTextWindows(text: Option<string>, maxChars: int, overlap: int)
    requires ValidWindow(maxChars, overlap) && |Source(text)| > maxChars
    ensures var t := Source(text);
      && |ChunkText(text, maxChars, overlap)| == WindowCount(|t|, maxChars, overlap)
      && WindowsAre(t, maxChars, overlap, 0, ChunkText(text, maxChars, overlap))
  {
    var t := Source(text);
    WindowsFromShape(t, maxChars, overlap, 0);
  }

  /** `cs` are the stripped windows `k`, `k + 1`, ... of `t`. */
  predicate WindowsAre(t: string, maxChars: int, overlap: int, k: nat, cs: seq<string>)
    requires ValidWindow(maxChars, overlap)
  {
    forall i :: 0 <= i < |cs| ==> WindowAt(t, maxChars, overlap, k + i, cs[i])
  }

  /** `c` is the stripped window `n` of `t`, and that window starts inside `t`. */
  predicate WindowAt(t: string, maxChars: int, overlap: int, n: nat, c: string)
    requires ValidWindow(maxChars, overlap)
  {
    WStart(maxChars, overlap, n) < |t| && c == Window(t, maxChars, overlap, n)
  }

  /** `WindowsFrom(k)` holds windows `k`, `k + 1`, ... up to the first that reaches the end. */
  lemma {:induction false} WindowsFromShape(t: string, maxChars: int, overlap: int, k: nat)
    requires ValidWindow(maxChars, overlap) && |t| > maxChars && WStart(maxChars, overlap, k) < |t|
    requires k > 0 ==> WStart(maxChars, overlap, k - 1) + maxChars < |t|
    ensures k + |WindowsFrom(t, maxChars, overlap, k)| == WindowCount(|t|, maxChars, overlap)
    ensures WindowsAre(t, maxChars, overlap, k, WindowsFrom(t, maxChars, overlap, k))
    decreases |t| - WStart(maxChars, overlap, k)
  {
    if WStart(maxChars, overlap, k) + maxChars >= |t| {
      CountAtStop(|t|, maxChars, overlap, k);
    } else {
      WStartNext(maxChars, overlap, k);
      WindowsFromShape(t, maxChars, overlap, k + 1);
      ConsWindows(t, maxChars, overlap, k, WindowsFrom(t, maxChars, overlap, k + 1));
    }
  }

  /** Window `k` in front of windows `k + 1`, ... gives windows `k`, .... */
  lemma ConsWindows(t: string, maxChars: int, overlap: int, k: nat, rest: seq<string>)
    requires ValidWindow(maxChars, overlap) && WStart(maxChars, overlap, k) < |t|
    requires WindowsAre(t, maxChars, overlap, k + 1, rest)
    ensures WindowsAre(t, maxChars, overlap, k, [Window(t, maxChars, overlap, k)] + rest)
  {
    var cs := [Window(t, maxChars, overlap, k)] + rest;
    forall i | 0 <= i < |cs| ensures WindowAt(t, maxChars, overlap, k + i, cs[i]) {
      if i == 0 {
        assert cs[0] == Window(t, maxChars, overlap, k);
      } else {
        var j := i - 1;
        assert cs[i] == rest[j];
        SameWindow(t, maxChars, overlap, (k + 1) + j, k + i, rest[j], cs[i]);
      }
    }
  }

  lemma SameWindow(t: string, maxChars: int, overlap: int, n: nat, m: nat, c: string, d: string)
    requires ValidWindow(maxChars, overlap) && n == m && c == d && WindowAt(t, maxChars, overlap, n, c)
    ensures WindowAt(t, maxChars, overlap, m, d)
  {
  }

  /** The loop stops at the first window that reaches the end: there are `WindowCount` of them. */
  lemma CountAtStop(len: nat, maxChars: int, overlap: int, k: nat)
    requires ValidWindow(maxChars, overlap) && len > maxChars
    requires WStart(maxChars, overlap, k) + maxChars >= len
    requires k > 0 ==> WStart(maxChars, overlap, k - 1) + maxChars < len
    ensures k + 1 == WindowCount(len, maxChars, overlap)
  {
    var step := maxChars - overlap;
    if k == 0 {
      assert false;
    }
    CeilDivUnique(len - maxChars, step, k);
  }

  /** No multiple of `d` from `k * d >= x` on lies below `ceil(x / d)`. */
  lemma CeilDivAtMost(x: nat, d: int, k: nat)
    requires d > 0 && k * d >= x
    ensures CeilDiv(x, d) <= k
  {
    var q := CeilDiv(x, d);
    assert q * d <= x + d - 1;
    if q > k {
      MulMono(k + 1, q, d);
      assert false;
    }
  }

  /** `ceil(x / d)` steps of `d` reach `x`. */
  lemma CeilDivReaches(x: nat, d: int)
    requires d > 0
    ensures CeilDiv(x, d) * d >= x
  {
    var q := CeilDiv(x, d);
    assert x + d - 1 < q * d + d;
  }

  /** Every window but the last ends before the text does. */
  lemma InnerWindow(len: nat, maxChars: int, overlap: int, i: nat)
    requires ValidWindow(maxChars, overlap) && len > maxChars
    requires i + 1 < WindowCount(len, maxChars, overlap)
    ensures WStart(maxChars, overlap, i) + maxChars < len
  {
    if i * (maxChars - overlap) >= len - maxChars {
      CeilDivAtMost(len - maxChars, maxChars - overlap, i);
      assert false;
    }
  }

  /** Each window after the first starts `overlap` characters before the previous one ends. */
  lemma WindowsOverlap(len: nat, maxChars: int, overlap: int, i: nat)
    requires ValidWindow(maxChars, overlap) && len > maxChars
    requires i + 1 < WindowCount(len, maxChars, overlap)
    ensures WEnd(len, maxChars, overlap, i) - WStart(maxChars, overlap, i + 1) == overlap
  {
    InnerWindow(len, maxChars, overlap, i);
  }

  /** The last window ends at the end of the text. */
  lemma LastWindowReachesEnd(len: nat, maxChars: int, overlap: int)
    requires ValidWindow(maxChars, overlap) && len > maxChars
    ensures WEnd(len, maxChars, overlap, WindowCount(len, maxChars, overlap) - 1) == len
  {
    var c := CeilDiv(len - maxChars, maxChars - overlap);
    CeilDivReaches(len - maxChars, maxChars - overlap);
  }

  /** Every character of the text lies in some window. */
  lemma WindowsCover(len: nat, maxChars: int, overlap: int, j: nat)
    requires ValidWindow(maxChars, overlap) && len > maxChars && j < len
    ensures exists i ::
      && 0 <= i < WindowCount(len, maxChars, overlap)
      && WStart(maxChars, overlap, i) <= j < WEnd(len, maxChars, overlap, i)
  {
    var step := maxChars - overlap;
    var n := WindowCount(len, maxChars, overlap);
    var i := j / step;
    if i < n {
      assert i * step <= j < i * step + step;
      assert WStart(maxChars, overlap, i) <= j < WEnd(len, maxChars, overlap, i);
    } else {
      LastWindowReachesEnd(len, maxChars, overlap);
      MulMono(n - 1, i, step);
      assert i * step <= j;
      assert WStart(maxChars, overlap, n - 1) <= j < WEnd(len, maxChars, overlap, n - 1);
    }
  }
}

=== FILE: common.dfy ===
/** Failure-carrying values and sequence flattening shared by every module. */
module Common {

  /** A value that may be absent: Python's `None` or a present value. */
  datatype Option<+T> = None | Some(value: T)

  /** The outcome of an operation that may raise: a value or the error it raised. */
  datatype Result<+T, +E> = Ok(value: T) | Err(error: E)

  /** Concatenation of a sequence of sequences, in order. */
  function Concat<T>(xss: seq<seq<T>>): (r: seq<T>)
    ensures |xss| == 0 ==> r == []
    ensures |xss| > 0 ==> |r| >= |xss[0]| && r[..|xss[0]|] == xss[0]
  {
    if |xss| == 0 then [] else xss[0] + Concat(xss[1..])
  }

  /** Concatenation distributes over appending the outer sequences. */
  lemma {:induction false} ConcatAppend<T>(a: seq<seq<T>>, b: seq<seq<T>>)
    ensures Concat(a + b) == Concat(a) + Concat(b)
  {
    if |a| == 0 {
      assert a + b == b;
    } else {
      assert (a + b)[1..] == a[1..] + b;
      ConcatAppend(a[1..], b);
    }
  }

  /** Concatenating one more inner sequence at the end appends it. */
  lemma ConcatSnoc<T>(a: seq<seq<T>>, x: seq<T>)
    ensures Concat(a + [x]) == Concat(a) + x
  {
    ConcatAppend(a, [x]);
    assert Concat([x]) == x + Concat([x][1..]);
  }

  /** The results of `f` on every element of `xs`, concatenated in order. */
  function FlatMap<A, B>(f: A -> seq<B>, xs: seq<A>): seq<B>
    decreases |xs|
  {
    if |xs| == 0 then [] else f(xs[0]) + FlatMap(f, xs[1..])
  }

  /** Flat-mapping distributes over appending the input sequences. */
  lemma {:induction false} FlatMapAppend<A, B>(f: A -> seq<B>, a: seq<A>, b: seq<A>)
    ensures FlatMap(f, a + b) == FlatMap(f, a) + FlatMap(f, b)
    decreases |a|
  {
    if |a| == 0 {
      assert a + b == b;
    } else {
      assert (a + b)[0] == a[0];
      assert (a + b)[1..] == a[1..] + b;
      FlatMapAppend(f, a[1..], b);
    }
  }
}

=== FILE: documents.dfy ===
/**
 * Turning the knowledge-base documents into retrieval records: which files
 * are picked up, and the records built from the text of each PDF page, Word
 * document, slide and spreadsheet sheet. The parsing libraries are replaced
 * by the text they extract.
 */
module Documents {
  import opened Common
  import opened Text
  import opened CharChunks

  /** The extensions the parser handles, lower-case. */
  const EXTENSIONS: seq<string> := [".pdf", ".docx", ".pptx", ".xlsx"]

  /** The dot that starts a suffix, if the name has one: the last dot, not first, not last. */
  function LastDot(name: string): (i: Option<nat>)
    ensures i.Some? ==> i.value < |name| && name[i.value] == '.'
    ensures i.Some? ==> forall j :: i.value < j < |name| ==> name[j] != '.'
    ensures i.None? ==> forall j :: 0 <= j < |name| ==> name[j] != '.'
    decreases |name|
  {
    if name == [] then None
    else if name[|name| - 1] == '.' then Some(|name| - 1)
    else LastDot(name[..|name| - 1])
  }

  /** `Path(name).suffix`: from the last dot on, unless that dot starts or ends the name. */
  function Suffix(name: string): (r: string)
    ensures r == [] || (r[0] == '.' && |r| >= 2 && |r| < |name| && r == name[|name| - |r|..])
    ensures forall j :: 1 <= j < |r| ==> r[j] != '.'
  {
    var i := LastDot(name);
    if i.Some? && 0 < i.value < |name| - 1 then name[i.value..] else []
  }

  /** `iter_files` keeps a file when its lower-cased suffix is a handled extension. */
  predicate Supported(name: string)
  {
    Lower(Suffix(name)) in EXTENSIONS
  }

  /** The last dot of `stem + ext` is the one that starts a dot-free `ext`. */
  lemma {:induction false} LastDotOf(stem: string, ext: string)
    requires |ext| >= 1 && ext[0] == '.'
    requires forall j :: 1 <= j < |ext| ==> ext[j] != '.'
    ensures LastDot(stem + ext) == Some(|stem|)
    decreases |ext|
  {
    var name := stem + ext;
    if |ext| > 1 {
      assert name[|name| - 1] == ext[|ext| - 1];
      assert name[..|name| - 1] == stem + ext[..|ext| - 1];
      LastDotOf(stem, ext[..|ext| - 1]);
    }
  }

  /** A non-empty stem followed by a dot and a dot-free extension has that extension as its suffix. */
  lemma SuffixOf(stem: string, ext: string)
    requires stem != [] && |ext| >= 2 && ext[0] == '.'
    requires forall j :: 1 <= j < |ext| ==> ext[j] != '.'
    ensures Suffix(stem + ext) == ext
  {
    LastDotOf(stem, ext);
    assert (stem + ext)[|stem|..] == ext;
  }

  /** A file is picked up exactly when its name ends in one of the extensions, in any case, after a non-empty stem. */
  lemma SupportedExtension(stem: string, ext: string)
    requires stem != [] && |ext| >= 2 && ext[0] == '.'
    requires forall j :: 1 <= j < |ext| ==> ext[j] != '.'
    ensures Supported(stem + ext) <==> Lower(ext) in EXTENSIONS
  {
    SuffixOf(stem, ext);
  }

  /** `iter_files` over the names the directory walk yields, in walk order. */
  function IterFiles(names: seq<string>): (r: seq<string>)
    ensures forall n :: n in r <==> n in names && Supported(n)
    ensures |r| <= |names|
  {
    if names == [] then []
    else (if Supported(names[0]) then [names[0]] else []) + IterFiles(names[1..])
  }

  /** Kept files follow walk order, repeats included: the files kept from two runs are those of each in turn. */
  lemma {:induction false} IterFilesAppend(a: seq<string>, b: seq<string>)
    ensures IterFiles(a + b) == IterFiles(a) + IterFiles(b)
    decreases |a|
  {
    if a == [] {
      assert a + b == b;
    } else {
      var rest := a[1..];
      assert (a + b)[0] == a[0];
      assert (a + b)[1..] == rest + b;
      IterFilesCons(a + b);
      IterFilesCons(a);
      IterFilesAppend(rest, b);
      RegroupNames(if Supported(a[0]) then [a[0]] else [], IterFiles(rest), IterFiles(b));
    }
  }

  lemma IterFilesCons(names: seq<string>)
    requires names != []
    ensures IterFiles(names) == (if Supported(names[0]) then [names[0]] else []) + IterFiles(names[1..])
  {
  }

  lemma RegroupNames(x: seq<string>, y: seq<string>, z: seq<string>)
    ensures (x + y) + z == x + (y + z)
  {
  }

  /** One retrieval record as `parse_docs` writes it. */
  datatype Record = Record(text: string, source: string, sourceFile: string, page: Option<int>, section: string)

  /** The chunks of one extracted text, with the default window. */
  function Chunks(text: string): (r: seq<string>)
    ensures Blank(text) ==> r == []
  {
    ChunkText(Some(text), MAX_CHARS, OVERLAP)
  }

  /** One record per chunk, all with the same provenance. */
  function Tag(chunks: seq<string>, rel: string, name: string, page: Option<int>, section: string): (r: seq<Record>)
    ensures |r| == |chunks|
    ensures forall i :: 0 <= i < |r| ==> r[i] == Record(chunks[i], rel, name, page, section)
  {
    seq(|chunks|, i requires 0 <= i < |chunks| => Record(chunks[i], rel, name, page, section))
  }

  /** Every record carries the file's relative path and file name. */
  predicate FromFile(r: seq<Record>, rel: string, name: string)
  {
    forall k :: 0 <= k < |r| ==> r[k].source == rel && r[k].sourceFile == name
  }

  /** Every record has a page between 1 and `n`, and pages never go back. */
  predicate PagedUpTo(r: seq<Record>, n: int)
  {
    && (forall k :: 0 <= k < |r| ==> r[k].page.Some? && 1 <= r[k].page.value <= n)
    && (forall a, b :: 0 <= a < b < |r| && r[a].page.Some? && r[b].page.Some? ==> r[a].page.value <= r[b].page.value)
  }

  lemma PagedAppend(r: seq<Record>, n: nat, tail: seq<Record>)
    requires PagedUpTo(r, n)
    requires forall k :: 0 <= k < |tail| ==> tail[k].page == Some(n + 1)
    ensures PagedUpTo(r + tail, n + 1)
  {
    var s := r + tail;
    forall a, b | 0 <= a < b < |s| && s[a].page.Some? && s[b].page.Some?
      ensures s[a].page.value <= s[b].page.value
    {
      if b < |r| {
        assert s[a] == r[a] && s[b] == r[b];
      } else if a >= |r| {
        assert s[a] == tail[a - |r|] && s[b] == tail[b - |r|];
      } else {
        assert s[a] == r[a] && s[b] == tail[b - |r|];
      }
    }
    forall k | 0 <= k < |s| ensures s[k].page.Some? && 1 <= s[k].page.value <= n + 1 {
      if k < |r| {
        assert s[k] == r[k];
      } else {
        assert s[k] == tail[k - |r|];
      }
    }
  }

  /** The texts of the records that carry page `page`, in record order. */
  function TextsOn(r: seq<Record>, page: Option<int>): seq<string>
  {
    if r == [] then [] else (if r[0].page == page then [r[0].text] else []) + TextsOn(r[1..], page)
  }

  lemma {:induction false} TextsOnAppend(a: seq<Record>, b: seq<Record>, page: Option<int>)
    ensures TextsOn(a + b, page) == TextsOn(a, page) + TextsOn(b, page)
    decreases |a|
  {
    if a == [] {
      assert a + b == b;
    } else {
      assert (a + b)[0] == a[0];
      assert (a + b)[1..] == a[1..] + b;
      TextsOnAppend(a[1..], b, page);
    }
  }

  /** The records of one page hold its chunks in order, and nothing for any other page. */
  lemma {:induction false} TextsOnTag(chunks: seq<string>, rel: string, name: string, pg: Option<int>, page: Option<int>)
    ensures TextsOn(Tag(chunks, rel, name, pg, ""), page) == if pg == page then chunks else []
    decreases |chunks|
  {
    var t := Tag(chunks, rel, name, pg, "");
    if chunks != [] {
      assert t[1..] == Tag(chunks[1..], rel, name, pg, "");
      TextsOnTag(chunks[1..], rel, name, pg, page);
      assert chunks == [chunks[0]] + chunks[1..];
    }
  }

  lemma {:induction false} TextsOnAbsent(r: seq<Record>, page: Option<int>)
    requires forall k :: 0 <= k < |r| ==> r[k].page != page
    ensures TextsOn(r, page) == []
    decreases |r|
  {
    if r != [] {
      TextsOnAbsent(r[1..], page);
    }
  }

  /** Page `p` of the records, for every `p` from 1 to `|cs|`, holds exactly the texts `cs[p - 1]`, in order. */
  predicate PagesHold(r: seq<Record>, cs: seq<seq<string>>)
  {
    forall p :: 1 <= p <= |cs| ==> TextsOn(r, Some(p)) == cs[p - 1]
  }

  /** Appending the records of the next page keeps the earlier pages and fills in the new one. */
  lemma NumberedStep(front: seq<Record>, cs: seq<seq<string>>, tail: seq<Record>, rel: string, name: string)
    requires |cs| >= 1
    requires PagedUpTo(front, |cs| - 1) && PagesHold(front, cs[..|cs| - 1])
    requires tail == Tag(cs[|cs| - 1], rel, name, Some(|cs|), "")
    ensures PagesHold(front + tail, cs)
  {
    var n := |cs| - 1;
    forall p | 1 <= p <= |cs| ensures TextsOn(front + tail, Some(p)) == cs[p - 1] {
      TextsOnAppend(front, tail, Some(p));
      TextsOnTag(cs[n], rel, name, Some(|cs|), Some(p));
      if p <= n {
        assert cs[..n][p - 1] == cs[p - 1];
        assert TextsOn(front, Some(p)) == cs[..n][p - 1];
      } else {
        TextsOnAbsent(front, Some(p));
      }
    }
  }

  /** Every record names a page of `pages` and holds one of that page's chunks. */
  predicate FromPages(r: seq<Record>, pages: seq<string>)
  {
    forall k :: 0 <= k < |r| ==> OnPage(r[k], pages)
  }

  /** A record without a section whose text is a chunk of the page it names. */
  predicate OnPage(rec: Record, pages: seq<string>)
  {
    && rec.section == ""
    && rec.page.Some? && 1 <= rec.page.value <= |pages|
    && rec.text in Chunks(pages[rec.page.value - 1])
  }

  /** A record on one of the first pages stays on that page when more pages follow. */
  lemma OnPagePrefix(rec: Record, pages: seq<string>, n: nat)
    requires n <= |pages| && OnPage(rec, pages[..n])
    ensures OnPage(rec, pages)
  {
    assert pages[..n][rec.page.value - 1] == pages[rec.page.value - 1];
  }

  /** The chunks of each page, in page order. */
  function PageChunks(pages: seq<string>): (cs: seq<seq<string>>)
    ensures |cs| == |pages|
    ensures forall i :: 0 <= i < |pages| ==> cs[i] == Chunks(pages[i])
  {
    seq(|pages|, i requires 0 <= i < |pages| => Chunks(pages[i]))
  }

  /**
   * `extract_from_pdf`: the chunks of each page's text, page by page,
   * numbered from 1: the records of page `p` are exactly the chunks of page
   * `p`, in order, and pages never go back.
   */
  function PdfRecords(rel: string, name: string, pages: seq<string>): (r: seq<Record>)
    ensures FromFile(r, rel, name)
    ensures PagedUpTo(r, |pages|)
    ensures FromPages(r, pages)
    ensures PagesHold(r, PageChunks(pages))
    decreases |pages|
  {
    if pages == [] then []
    else
      var n := |pages| - 1;
      var front := PdfRecords(rel, name, pages[..n]);
      PdfStep(rel, name, pages, front);
      front + Tag(Chunks(pages[n]), rel, name, Some(n + 1), "")
  }

  /** Appending the records of the last page keeps every property of the records of the pages before it. */
  lemma PdfStep(rel: string, name: string, pages: seq<string>, front: seq<Record>)
    requires pages != []
    requires FromFile(front, rel, name)
    requires PagedUpTo(front, |pages| - 1)
    requires FromPages(front, pages[..|pages| - 1])
    requires PagesHold(front, PageChunks(pages[..|pages| - 1]))
    ensures var r := front + Tag(Chunks(pages[|pages| - 1]), rel, name, Some(|pages|), "");
            && FromFile(r, rel, name)
            && PagedUpTo(r, |pages|)
            && FromPages(r, pages)
            && PagesHold(r, PageChunks(pages))
  {
    var n := |pages| - 1;
    var tail := Tag(Chunks(pages[n]), rel, name, Some(n + 1), "");
    PagedAppend(front, n, tail);
    PagesAppend(front, pages, tail);
    FromFileAppend(front, tail, rel, name);
    assert PageChunks(pages)[..n] == PageChunks(pages[..n]);
    NumberedStep(front, PageChunks(pages), tail, rel, name);
  }

  lemma FromFileAppend(a: seq<Record>, b: seq<Record>, rel: string, name: string)
    requires FromFile(a, rel, name) && FromFile(b, rel, name)
    ensures FromFile(a + b, rel, name)
  {
  }

  lemma PagesAppend(front: seq<Record>, pages: seq<string>, tail: seq<Record>)
    requires |pages| >= 1
    requires FromPages(front, pages[..|pages| - 1])
    requires forall k :: 0 <= k < |tail| ==>
      && tail[k].section == ""
      && tail[k].page == Some(|pages|)
      && tail[k].text in Chunks(pages[|pages| - 1])
    ensures FromPages(front + tail, pages)
  {
    var r := front + tail;
    var n := |pages| - 1;
    forall k | 0 <= k < |r|
      ensures OnPage(r[k], pages)
    {
      if k < |front| {
        assert r[k] == front[k];
        OnPagePrefix(front[k], pages, n);
      } else {
        assert r[k] == tail[k - |front|];
      }
    }
  }

  /** A blank page adds no record. */
  lemma PdfBlankPage(rel: string, name: string, pages: seq<string>, p: string)
    requires Blank(p)
    ensures PdfRecords(rel, name, pages + [p]) == PdfRecords(rel, name, pages)
  {
    assert (pages + [p])[..|pages|] == pages;
  }

  /** The paragraphs `extract_from_docx` keeps: those that are not blank. */
  function TextParagraphs(paras: seq<string>): (r: seq<string>)
    ensures forall i :: 0 <= i < |r| ==> !Blank(r[i])
    ensures forall p :: p in r <==> p in paras && !Blank(p)
    ensures |r| <= |paras|
  {
    if paras == [] then []
    else (if Blank(paras[0]) then [] else [paras[0]]) + TextParagraphs(paras[1..])
  }

  /** Paragraphs keep document order and repeats: the kept paragraphs of two runs are those of each in turn. */
  lemma {:induction false} TextParagraphsAppend(a: seq<string>, b: seq<string>)
    ensures TextParagraphs(a + b) == TextParagraphs(a) + TextParagraphs(b)
    decreases |a|
  {
    if a == [] {
      assert a + b == b;
    } else {
      assert (a + b)[0] == a[0];
      assert (a + b)[1..] == a[1..] + b;
      TextParagraphsAppend(a[1..], b);
    }
  }

  /** `extract_from_docx`: the chunks of the non-blank paragraphs joined by newlines, with no page. */
  function DocxRecords(rel: string, name: string, paras: seq<string>): (r: seq<Record>)
    ensures FromFile(r, rel, name)
    ensures forall k :: 0 <= k < |r| ==> r[k].page.None? && r[k].section == ""
    ensures |r| == |Chunks(Join("\n", TextParagraphs(paras)))|
    ensures forall k :: 0 <= k < |r| ==> r[k].text == Chunks(Join("\n", TextParagraphs(paras)))[k]
  {
    Tag(Chunks(Join("\n", TextParagraphs(paras))), rel, name, None, "")
  }

  /** A document whose paragraphs are all blank gives no record. */
  lemma DocxBlank(rel: string, name: string, paras: seq<string>)
    requires forall i :: 0 <= i < |paras| ==> Blank(paras[i])
    ensures DocxRecords(rel, name, paras) == []
  {
    NoTextParagraphs(paras);
  }

  lemma {:induction false} NoTextParagraphs(paras: seq<string>)
    requires forall i :: 0 <= i < |paras| ==> Blank(paras[i])
    ensures TextParagraphs(paras) == []
    decreases |paras|
  {
    if paras != [] {
      NoTextParagraphs(paras[1..]);
    }
  }

  /** A slide's shapes: the text of each shape that has a text frame, `None` for the others. */
  type Slide = seq<Option<string>>

  /** The stripped, non-empty texts of a slide's shapes, in shape order. */
  function SlideTexts(shapes: Slide): (r: seq<string>)
    ensures forall i :: 0 <= i < |r| ==> r[i] != [] && Strip(r[i]) == r[i]
    ensures |r| <= |shapes|
    ensures forall t :: t in r <==>
              exists i :: 0 <= i < |shapes| && shapes[i].Some? && !Blank(shapes[i].value) && t == Strip(shapes[i].value)
  {
    if shapes == [] then []
    else
      var rest := SlideTexts(shapes[1..]);
      if shapes[0].Some? && Strip(shapes[0].value) != [] then
        StripIdempotent(shapes[0].value);
        [Strip(shapes[0].value)] + rest
      else rest
  }

  /** The shape texts keep shape order: the texts of two runs of shapes are those of each in turn. */
  lemma {:induction false} SlideTextsAppend(a: Slide, b: Slide)
    ensures SlideTexts(a + b) == SlideTexts(a) + SlideTexts(b)
    decreases |a|
  {
    if a == [] {
      assert a + b == b;
    } else {
      assert (a + b)[0] == a[0];
      assert (a + b)[1..] == a[1..] + b;
      SlideTextsAppend(a[1..], b);
    }
  }

  /** The chunks of a slide: those of its shape texts joined by newlines. */
  function SlideChunks(shapes: Slide): seq<string>
  {
    Chunks(Join("\n", SlideTexts(shapes)))
  }

  /** The chunks of each slide, in slide order. */
  function SlidesChunks(slides: seq<Slide>): (cs: seq<seq<string>>)
    ensures |cs| == |slides|
    ensures forall i :: 0 <= i < |slides| ==> cs[i] == SlideChunks(slides[i])
  {
    seq(|slides|, i requires 0 <= i < |slides| => SlideChunks(slides[i]))
  }

  /** The records of one slide, numbered `index`: one per chunk of its joined shape texts, in order. */
  function SlideRecords(rel: string, name: string, shapes: Slide, index: int): (r: seq<Record>)
    ensures forall k :: 0 <= k < |r| ==> r[k] == Record(r[k].text, rel, name, Some(index), "")
    ensures |r| == |SlideChunks(shapes)|
    ensures forall k :: 0 <= k < |r| ==> r[k].text == SlideChunks(shapes)[k]
  {
    var texts := SlideTexts(shapes);
    if texts == [] then [] else Tag(Chunks(Join("\n", texts)), rel, name, Some(index), "")
  }

  /**
   * `extract_from_pptx`: the records of each slide in turn, slides numbered
   * from 1: the records of slide `p` are exactly the chunks of its joined
   * shape texts, in order, and slide numbers never go back.
   */
  function PptxRecords(rel: string, name: string, slides: seq<Slide>): (r: seq<Record>)
    ensures FromFile(r, rel, name)
    ensures PagedUpTo(r, |slides|)
    ensures forall k :: 0 <= k < |r| ==> r[k].section == ""
    ensures PagesHold(r, SlidesChunks(slides))
    decreases |slides|
  {
    if slides == [] then []
    else
      var n := |slides| - 1;
      var front := PptxRecords(rel, name, slides[..n]);
      PptxStep(rel, name, slides, front);
      front + SlideRecords(rel, name, slides[n], n + 1)
  }

  /** Appending the records of the last slide keeps every property of the records of the slides before it. */
  lemma PptxStep(rel: string, name: string, slides: seq<Slide>, front: seq<Record>)
    requires slides != []
    requires FromFile(front, rel, name)
    requires PagedUpTo(front, |slides| - 1)
    requires forall k :: 0 <= k < |front| ==> front[k].section == ""
    requires PagesHold(front, SlidesChunks(slides[..|slides| - 1]))
    ensures var r := front + SlideRecords(rel, name, slides[|slides| - 1], |slides|);
            && FromFile(r, rel, name)
            && PagedUpTo(r, |slides|)
            && (forall k :: 0 <= k < |r| ==> r[k].section == "")
            && PagesHold(r, SlidesChunks(slides))
  {
    var n := |slides| - 1;
    var tail := SlideRecords(rel, name, slides[n], n + 1);
    PagedAppend(front, n, tail);
    assert tail == Tag(SlideChunks(slides[n]), rel, name, Some(n + 1), "");
    assert SlidesChunks(slides)[..n] == SlidesChunks(slides[..n]);
    NumberedStep(front, SlidesChunks(slides), tail, rel, name);
  }

  /** A slide none of whose shapes holds text adds no record. */
  lemma PptxTextlessSlide(rel: string, name: string, slides: seq<Slide>, s: Slide)
    requires forall i :: 0 <= i < |s| ==> s[i].None? || Blank(s[i].value)
    ensures PptxRecords(rel, name, slides + [s]) == PptxRecords(rel, name, slides)
  {
    NoSlideTexts(s);
    assert (slides + [s])[..|slides|] == slides;
  }

  lemma {:induction false} NoSlideTexts(s: Slide)
    requires forall i :: 0 <= i < |s| ==> s[i].None? || Blank(s[i].value)
    ensures SlideTexts(s) == []
    decreases |s|
  {
    if s != [] {
      NoSlideTexts(s[1..]);
    }
  }

  /** A cell value as openpyxl returns it. */
  datatype Cell =
    | Empty                    // `None`
    | Text(s: string)          // a string, possibly empty
    | Other(repr: string)      // a number, date or formula result, with its `str()`

  /** A cell the row formatting keeps: not `None` and not `""`. */
  predicate Kept(c: Cell)
  {
    !(c.Empty? || c == Text(""))
  }

  /** `str(c.value).strip()` of a kept cell. */
  function CellText(c: Cell): string
  {
    match c
    case Empty => ""
    case Text(s) => Strip(s)
    case Other(repr) => Strip(repr)
  }

  /** The texts of the kept cells of a row, in column order. */
  function RowValues(row: seq<Cell>): (r: seq<string>)
    ensures |r| <= |row|
    ensures r == [] <==> forall i :: 0 <= i < |row| ==> !Kept(row[i])
    ensures forall v :: v in r <==> exists i :: 0 <= i < |row| && Kept(row[i]) && v == CellText(row[i])
  {
    if row == [] then []
    else (if Kept(row[0]) then [CellText(row[0])] else []) + RowValues(row[1..])
  }

  /** Values keep column order: the values of two runs of cells are those of each in turn. */
  lemma {:induction false} RowValuesAppend(a: seq<Cell>, b: seq<Cell>)
    ensures RowValues(a + b) == RowValues(a) + RowValues(b)
    decreases |a|
  {
    if a == [] {
      assert a + b == b;
    } else {
      assert (a + b)[0] == a[0];
      assert (a + b)[1..] == a[1..] + b;
      RowValuesAppend(a[1..], b);
    }
  }

  /** The rows of a sheet that keep a cell, each written as its values joined by " | ". */
  function RowsText(rows: seq<seq<Cell>>): (r: seq<string>)
    ensures |r| <= |rows|
    ensures r == [] <==> forall i :: 0 <= i < |rows| ==> RowValues(rows[i]) == []
  {
    if rows == [] then []
    else
      var v := RowValues(rows[0]);
      (if v == [] then [] else [Join(" | ", v)]) + RowsText(rows[1..])
  }

  /** `line` is the joined values of some row of `rows` that keeps a cell. */
  predicate RowLine(rows: seq<seq<Cell>>, line: string)
  {
    exists i :: 0 <= i < |rows| && RowValues(rows[i]) != [] && line == Join(" | ", RowValues(rows[i]))
  }

  /** Every line is the joined values of a row that keeps a cell, and every such row gives a line. */
  lemma {:induction false} RowsTextLines(rows: seq<seq<Cell>>)
    ensures forall line :: line in RowsText(rows) <==> RowLine(rows, line)
  {
    if rows != [] {
      RowsTextLines(rows[1..]);
      forall line
        ensures line in RowsText(rows) <==> RowLine(rows, line)
      {
        RowLineCons(rows, line);
      }
    }
  }

  lemma RowLineCons(rows: seq<seq<Cell>>, line: string)
    requires rows != []
    ensures RowLine(rows, line)
        <==> (RowValues(rows[0]) != [] && line == Join(" | ", RowValues(rows[0]))) || RowLine(rows[1..], line)
  {
    if RowLine(rows[1..], line) {
      var i :| 0 <= i < |rows[1..]| && RowValues(rows[1..][i]) != [] && line == Join(" | ", RowValues(rows[1..][i]));
      assert rows[1..][i] == rows[i + 1];
    }
    if RowLine(rows, line) {
      var i :| 0 <= i < |rows| && RowValues(rows[i]) != [] && line == Join(" | ", RowValues(rows[i]));
      if i > 0 {
        assert rows[1..][i - 1] == rows[i];
      }
    }
  }

  /** Lines keep row order: the lines of two runs of rows are those of each in turn. */
  lemma {:induction false} RowsTextAppend(a: seq<seq<Cell>>, b: seq<seq<Cell>>)
    ensures RowsText(a + b) == RowsText(a) + RowsText(b)
    decreases |a|
  {
    if a == [] {
      assert a + b == b;
    } else {
      assert (a + b)[0] == a[0];
      assert (a + b)[1..] == a[1..] + b;
      RowsTextAppend(a[1..], b);
    }
  }

  /** A worksheet: its title and its rows of cells. */
  datatype Sheet = Sheet(title: string, rows: seq<seq<Cell>>)

  const SHEET_HEADER: string := "Лист: "

  /** The text of a sheet, or `None` for a sheet with no kept cell. */
  function SheetText(sh: Sheet): (r: Option<string>)
    ensures r.None? <==> forall i, j :: 0 <= i < |sh.rows| && 0 <= j < |sh.rows[i]| ==> !Kept(sh.rows[i][j])
    ensures r.Some? ==> r.value == SHEET_HEADER + sh.title + "\n" + Join("\n", RowsText(sh.rows))
  {
    var rows := RowsText(sh.rows);
    if rows == [] then
      assert forall i, j :: 0 <= i < |sh.rows| && 0 <= j < |sh.rows[i]| ==> !Kept(sh.rows[i][j]) by {
        forall i, j | 0 <= i < |sh.rows| && 0 <= j < |sh.rows[i]| ensures !Kept(sh.rows[i][j]) {
          assert RowValues(sh.rows[i]) == [];
        }
      }
      None
    else
      Some(SHEET_HEADER + sh.title + "\n" + Join("\n", rows))
  }

  /** The chunks of a sheet's text; none for a sheet with no kept cell. */
  function SheetChunks(sh: Sheet): seq<string>
  {
    var t := SheetText(sh);
    if t.None? then [] else Chunks(t.value)
  }

  /** The records of one sheet: one per chunk of its text, in order, with the sheet's title as section. */
  function SheetRecords(rel: string, name: string, sh: Sheet): (r: seq<Record>)
    ensures |r| == |SheetChunks(sh)|
    ensures forall k :: 0 <= k < |r| ==> r[k] == Record(SheetChunks(sh)[k], rel, name, None, sh.title)
  {
    Tag(SheetChunks(sh), rel, name, None, sh.title)
  }

  /** `extract_from_xlsx`: the chunks of each sheet's text, with the sheet title as section and no page. */
  function XlsxRecords(rel: string, name: string, sheets: seq<Sheet>): (r: seq<Record>)
    ensures FromFile(r, rel, name)
    ensures forall k :: 0 <= k < |r| ==> r[k].page.None?
    ensures forall k :: 0 <= k < |r| ==> r[k].section in Titles(sheets)
    decreases |sheets|
  {
    if sheets == [] then []
    else
      var n := |sheets| - 1;
      var front := XlsxRecords(rel, name, sheets[..n]);
      var tail := SheetRecords(rel, name, sheets[n]);
      SheetsPrefix(front, sheets, n);
      front + tail
  }

  /** Sheets are handled in workbook order: the records of two runs of sheets are those of each in turn. */
  lemma {:induction false} XlsxRecordsAppend(rel: string, name: string, a: seq<Sheet>, b: seq<Sheet>)
    ensures XlsxRecords(rel, name, a + b) == XlsxRecords(rel, name, a) + XlsxRecords(rel, name, b)
    decreases |b|
  {
    if b == [] {
      assert a + b == a;
    } else {
      var n := |b| - 1;
      var ab := a + b;
      assert ab[..|ab| - 1] == a + b[..n];
      assert ab[|ab| - 1] == b[n];
      XlsxSnoc(rel, name, ab);
      XlsxSnoc(rel, name, b);
      XlsxRecordsAppend(rel, name, a, b[..n]);
      RegroupRecords(XlsxRecords(rel, name, a), XlsxRecords(rel, name, b[..n]), SheetRecords(rel, name, b[n]));
    }
  }

  lemma RegroupRecords(x: seq<Record>, y: seq<Record>, z: seq<Record>)
    ensures (x + y) + z == x + (y + z)
  {
  }

  lemma XlsxSnoc(rel: string, name: string, sheets: seq<Sheet>)
    requires sheets != []
    ensures XlsxRecords(rel, name, sheets)
         == XlsxRecords(rel, name, sheets[..|sheets| - 1]) + SheetRecords(rel, name, sheets[|sheets| - 1])
  {
  }

  /**
   * Within the records of a workbook, the records of one sheet sit between
   * those of the sheets before and after it, and are exactly its chunks,
   * each with that sheet's title as section.
   */
  lemma XlsxSheetRecords(rel: string, name: string, before: seq<Sheet>, sh: Sheet, after: seq<Sheet>)
    ensures XlsxRecords(rel, name, before + [sh] + after)
         == XlsxRecords(rel, name, before) + SheetRecords(rel, name, sh) + XlsxRecords(rel, name, after)
  {
    XlsxRecordsAppend(rel, name, before + [sh], after);
    XlsxRecordsAppend(rel, name, before, [sh]);
    assert [sh][..0] == [];
  }

  /** The titles of the sheets, in workbook order. */
  function Titles(sheets: seq<Sheet>): (r: seq<string>)
    ensures |r| == |sheets|
    ensures forall j :: 0 <= j < |sheets| ==> r[j] == sheets[j].title
  {
    seq(|sheets|, j requires 0 <= j < |sheets| => sheets[j].title)
  }

  lemma SheetsPrefix(front: seq<Record>, sheets: seq<Sheet>, n: nat)
    requires n < |sheets|
    requires forall k :: 0 <= k < |front| ==> front[k].section in Titles(sheets[..n])
    ensures forall k :: 0 <= k < |front| ==> front[k].section in Titles(sheets)
  {
    assert Titles(sheets[..n]) == Titles(sheets)[..n];
  }

  /** A sheet with no kept cell adds no record. */
  lemma XlsxEmptySheet(rel: string, name: string, sheets: seq<Sheet>, sh: Sheet)
    requires forall i, j :: 0 <= i < |sh.rows| && 0 <= j < |sh.rows[i]| ==> !Kept(sh.rows[i][j])
    ensures XlsxRecords(rel, name, sheets + [sh]) == XlsxRecords(rel, name, sheets)
  {
    assert (sheets + [sh])[..|sheets|] == sheets;
  }

  /** What a parsing library yields for a file, or `Unreadable` when it raises. */
  datatype Doc =
    | PdfDoc(pages: seq<string>)
    | DocxDoc(paras: seq<string>)
    | PptxDoc(slides: seq<Slide>)
    | XlsxDoc(sheets: seq<Sheet>)
    | Unreadable

  /** The library chosen for suffix `sfx` can read `doc`. */
  predicate Matches(sfx: string, doc: Doc)
  {
    || (sfx == ".pdf" && doc.PdfDoc?)
    || (sfx == ".docx" && doc.DocxDoc?)
    || (sfx == ".pptx" && doc.PptxDoc?)
    || (sfx == ".xlsx" && doc.XlsxDoc?)
  }

  /** A file found by the walk: its path relative to the repository root, its name, and its content. */
  datatype SourceFile = SourceFile(rel: string, name: string, doc: Doc)

  /**
   * One iteration of `main`: the extractor chosen by the lower-cased suffix,
   * `None` when it raises (content its library cannot read), no records for
   * any other suffix.
   */
  function Extract(f: SourceFile): (r: Option<seq<Record>>)
    ensures r.Some? ==> FromFile(r.value, f.rel, f.name)
    ensures !Supported(f.name) ==> r == Some([])
    ensures r.None? <==> Supported(f.name) && !Matches(Lower(Suffix(f.name)), f.doc)
    ensures Lower(Suffix(f.name)) == ".pdf" && f.doc.PdfDoc? ==> r == Some(PdfRecords(f.rel, f.name, f.doc.pages))
    ensures Lower(Suffix(f.name)) == ".docx" && f.doc.DocxDoc? ==> r == Some(DocxRecords(f.rel, f.name, f.doc.paras))
    ensures Lower(Suffix(f.name)) == ".pptx" && f.doc.PptxDoc? ==> r == Some(PptxRecords(f.rel, f.name, f.doc.slides))
    ensures Lower(Suffix(f.name)) == ".xlsx" && f.doc.XlsxDoc? ==> r == Some(XlsxRecords(f.rel, f.name, f.doc.sheets))
  {
    var sfx := Lower(Suffix(f.name));
    if sfx == ".pdf" then (if f.doc.PdfDoc? then Some(PdfRecords(f.rel, f.name, f.doc.pages)) else None)
    else if sfx == ".docx" then (if f.doc.DocxDoc? then Some(DocxRecords(f.rel, f.name, f.doc.paras)) else None)
    else if sfx == ".pptx" then (if f.doc.PptxDoc? then Some(PptxRecords(f.rel, f.name, f.doc.slides)) else None)
    else if sfx == ".xlsx" then (if f.doc.XlsxDoc? then Some(XlsxRecords(f.rel, f.name, f.doc.sheets)) else None)
    else Some([])
  }

  /** The records of a file, or none when its extraction raised. */
  function FileRecords(f: SourceFile): seq<Record>
  {
    var r := Extract(f);
    if r.Some? then r.value else []
  }

  /** Every record comes from one of `files`, with that file's path and name. */
  predicate FromSome(r: seq<Record>, files: seq<SourceFile>)
  {
    forall k :: 0 <= k < |r| ==> exists i :: 0 <= i < |files| && r[k].source == files[i].rel && r[k].sourceFile == files[i].name
  }

  /** `main`: the records of every file in turn, skipping the files whose extraction raised. */
  function ParseAll(files: seq<SourceFile>): seq<Record>
  {
    FlatMap(FileRecords, files)
  }

  /** Every record comes from one of the files, with that file's path and name. */
  lemma {:induction false} ParseAllFromFiles(files: seq<SourceFile>)
    ensures FromSome(ParseAll(files), files)
    decreases |files|
  {
    if files != [] {
      ParseAllFromFiles(files[1..]);
      ConsFromSome(FileRecords(files[0]), ParseAll(files[1..]), files);
    }
  }

  lemma ConsFromSome(head: seq<Record>, rest: seq<Record>, files: seq<SourceFile>)
    requires |files| >= 1
    requires FromFile(head, files[0].rel, files[0].name)
    requires FromSome(rest, files[1..])
    ensures FromSome(head + rest, files)
  {
    var r := head + rest;
    forall k | 0 <= k < |r|
      ensures exists i :: 0 <= i < |files| && r[k].source == files[i].rel && r[k].sourceFile == files[i].name
    {
      if k < |head| {
        assert r[k] == head[k];
        assert r[k].source == files[0].rel && r[k].sourceFile == files[0].name;
      } else {
        assert r[k] == rest[k - |head|];
        var i :| 0 <= i < |files[1..]| && r[k].source == files[1..][i].rel && r[k].sourceFile == files[1..][i].name;
        assert files[1..][i] == files[i + 1];
      }
    }
  }

  /** The records keep the order of the files: parsing two lists is parsing each in turn. */
  lemma ParseAllAppend(a: seq<SourceFile>, b: seq<SourceFile>)
    ensures ParseAll(a + b) == ParseAll(a) + ParseAll(b)
  {
    FlatMapAppend(FileRecords, a, b);
  }


  /** A file whose extraction raised leaves the other files' records as they were. */
  lemma ParseAllSkipsFailure(a: seq<SourceFile>, f: SourceFile, b: seq<SourceFile>)
    requires Extract(f).None?
    ensures ParseAll(a + [f] + b) == ParseAll(a) + ParseAll(b)
  {
    ParseAllAppend(a + [f], b);
    ParseAllAppend(a, [f]);
    FailedFileNoRecords(f);
    assert ParseAll(a) + [] == ParseAll(a);
  }

  lemma FailedFileNoRecords(f: SourceFile)
    requires Extract(f).None?
    ensures ParseAll([f]) == []
  {
    assert [f][1..] == [];
    assert FileRecords(f) == [];
    assert ParseAll([f]) == FileRecords(f) + FlatMap(FileRecords, [f][1..]);
  }
}

=== FILE: gating.dfy ===
/**
 * The gate in front of every incoming Telegram message (`universal_handler`,
 * up to the point where the reply is produced): which messages the bot
 * answers, and the text it passes on.
 */
module Gating {
  import opened Common
  import opened Text

  /** What the handler reads from a new-message event. */
  datatype Event = Event(
    out: bool,              // sent by the bot's own account
    chatId: int,
    text: Option<string>,   // the message text; `None` for media without a caption
    isPrivate: bool)

  /** The trigger words, in the order the handler tries them. */
  const TRIGGERS: seq<string> := [
    "душнилла", "душнила", "душ", "душик", "душечка",
    "dushnilla", "dushnila", "dush", "dushik", "dushechka"
  ]

  /** The text sent on when a group message held nothing but the trigger. */
  const GREETING: string := "Привет! Я Душнилла, чем помочь?"

  /** Some trigger word occurs in `low`: Python's `any(t in low for t in TRIGGERS)`. */
  predicate Triggered(low: string)
  {
    exists i :: 0 <= i < |TRIGGERS| && Contains(low, TRIGGERS[i])
  }

  /** A character of the class `[\s,:;!?-]` that may follow the trigger. */
  predicate SepChar(c: char)
  {
    IsSpace(c) || c == ',' || c == ':' || c == ';' || c == '!' || c == '?' || c == '-'
  }

  /** Length of the run of `SepChar`s that starts `s` (the greedy `*`). */
  function SepRun(s: string): (k: nat)
    ensures k <= |s|
    ensures forall i :: 0 <= i < k ==> SepChar(s[i])
    ensures k == |s| || !SepChar(s[k])
  {
    if s == [] || !SepChar(s[0]) then 0 else 1 + SepRun(s[1..])
  }

  /** `s` starts with `t`, ignoring case. */
  predicate StartsWithCI(s: string, t: string)
  {
    |t| <= |s| && forall i :: 0 <= i < |t| ==> LowerChar(s[i]) == LowerChar(t[i])
  }

  /**
   * `re.sub(f"(?i)^{re.escape(t)}[\s,:;!?-]*", "", s)`: a leading `t`, in any
   * case, is removed together with the separators after it.
   */
  function RemoveLeading(t: string, s: string): (r: string)
    ensures StartsWithCI(s, t) ==> |t| + |r| <= |s| && r == s[|s| - |r|..]
    ensures StartsWithCI(s, t) ==> forall i :: |t| <= i < |s| - |r| ==> SepChar(s[i])
    ensures StartsWithCI(s, t) ==> r == [] || !SepChar(r[0])
    ensures !StartsWithCI(s, t) ==> r == s
  {
    if StartsWithCI(s, t) then
      var rest := s[|t|..];
      rest[SepRun(rest)..]
    else s
  }

  /**
   * The handler's loop over the triggers: strip one, `strip()` the result,
   * and stop at the first non-empty result.
   */
  function StripLoop(ts: seq<string>, clean: string): string
  {
    if ts == [] then clean
    else
      var c := Strip(RemoveLeading(ts[0], clean));
      if c != [] then c else StripLoop(ts[1..], c)
  }

  /** The message text the handler works on: `(text or "").strip()`. */
  function MessageText(e: Event): string
  {
    Strip(if e.text.Some? then e.text.value else "")
  }

  /**
   * The handler's decision: `None` when it returns without answering,
   * otherwise the text it goes on to answer.
   */
  function Gate(allow: set<int>, e: Event): (r: Option<string>)
    ensures r.Some? ==> r.value != []
  {
    if e.out then None
    else if allow != {} && e.chatId !in allow then None
    else
      var msg := MessageText(e);
      if msg == [] then None
      else if !(e.isPrivate || Triggered(Lower(msg))) then None
      else if e.isPrivate then Some(msg)
      else
        var c := StripLoop(TRIGGERS, msg);
        Some(if c == [] then GREETING else c)
  }

  /**
   * The bot answers exactly the messages that are not its own, come from an
   * allowed chat, are not blank, and are private or mention a trigger word.
   */
  lemma GateResponds(allow: set<int>, e: Event)
    ensures Gate(allow, e).Some? <==>
      && !e.out
      && (allow == {} || e.chatId in allow)
      && !Blank(if e.text.Some? then e.text.value else "")
      && (e.isPrivate || Triggered(Lower(MessageText(e))))
  {
  }

  /** In a private chat the stripped text is passed on unchanged. */
  lemma GatePrivate(allow: set<int>, e: Event)
    requires e.isPrivate && Gate(allow, e).Some?
    ensures Gate(allow, e) == Some(MessageText(e))
  {
  }

  /** Once the text is empty, no later trigger can bring anything back. */
  lemma {:induction false} StripLoopEmpty(ts: seq<string>)
    ensures StripLoop(ts, []) == []
    decreases |ts|
  {
    if ts != [] {
      assert Strip(RemoveLeading(ts[0], [])) == [];
      StripLoopEmpty(ts[1..]);
    }
  }

  /** Only the first trigger is ever tried on the text: the loop stops or runs on empty text. */
  lemma StripLoopFirst(ts: seq<string>, s: string)
    requires |ts| >= 1
    ensures StripLoop(ts, s) == Strip(RemoveLeading(ts[0], s))
  {
    if Strip(RemoveLeading(ts[0], s)) == [] {
      StripLoopEmpty(ts[1..]);
    }
  }

  /**
   * In a group the answered text is the message with a leading "душнилла"
   * removed, or the greeting when nothing is left.
   */
  lemma GateGroup(allow: set<int>, e: Event)
    requires !e.isPrivate && Gate(allow, e).Some?
    ensures var c := Strip(RemoveLeading(TRIGGERS[0], MessageText(e)));
      Gate(allow, e) == Some(if c == [] then GREETING else c)
  {
    StripLoopFirst(TRIGGERS, MessageText(e));
  }

  /** A group message that does not start with "душнилла" is passed on whole, whatever trigger it starts with. */
  lemma GateGroupKeeps(allow: set<int>, e: Event)
    requires !e.isPrivate && Gate(allow, e).Some?
    requires !StartsWithCI(MessageText(e), TRIGGERS[0])
    ensures Gate(allow, e) == Some(MessageText(e))
  {
    GateGroup(allow, e);
    StripIdempotent(if e.text.Some? then e.text.value else "");
  }

  /** A group message that is "душнилла", in any case, and nothing else is answered with the greeting. */
  lemma GateTriggerOnly(allow: set<int>, chat: int, w: string)
    requires allow == {} || chat in allow
    requires |w| == |TRIGGERS[0]| && StartsWithCI(w, TRIGGERS[0])
    ensures Gate(allow, Event(false, chat, Some(w), false)) == Some(GREETING)
  {
    var t := TRIGGERS[0];
    var e := Event(false, chat, Some(w), false);
    assert !IsSpace(w[0]) && !IsSpace(w[|w| - 1]);
    StripTrimmed(w);
    assert Lower(w) == t;
    assert t <= Lower(w);
    assert Triggered(Lower(w));
    GateGroup(allow, e);
  }
}

=== FILE: messages.dfy ===
/**
 * Chat messages as the bot stores them: Python dicts whose values are
 * strings, lists (image parts) or anything else, kept in insertion order.
 */
module Messages {
  import opened Common

  /** An element of a list-valued field; only dict elements are counted as tokens. */
  datatype Item = DictItem(repr: string) | OtherItem

  /** The value stored under a key of a message dict. */
  datatype Value = Str(s: string) | List(items: seq<Item>) | OtherValue

  /** One message: the key/value pairs of its dict, in insertion order. */
  datatype Message = Message(fields: seq<(string, Value)>)

  /** A dict has each key at most once. */
  predicate DistinctKeys(m: Message)
  {
    forall i, j :: 0 <= i < j < |m.fields| ==> m.fields[i].0 != m.fields[j].0
  }

  /** The `{"role": role, "content": content}` dict the bot builds. */
  function Chat(role: string, content: string): (m: Message)
    ensures DistinctKeys(m)
  {
    Message([("role", Str(role)), ("content", Str(content))])
  }

  /** The string stored under `key`, if the dict has that key with a string value. */
  function StrField(m: Message, key: string): Option<string>
  {
    FieldIn(m.fields, key)
  }

  function FieldIn(fields: seq<(string, Value)>, key: string): Option<string>
  {
    if |fields| == 0 then None
    else if fields[0].0 == key then (if fields[0].1.Str? then Some(fields[0].1.s) else None)
    else FieldIn(fields[1..], key)
  }

  /** A built message reads back the role and content it was built from. */
  lemma ChatFields(role: string, content: string)
    ensures StrField(Chat(role, content), "role") == Some(role)
    ensures StrField(Chat(role, content), "content") == Some(content)
  {
    var f := Chat(role, content).fields;
    assert "role"[0] != "content"[0];
    assert FieldIn(f, "content") == FieldIn(f[1..], "content");
  }

  /** The operating instructions of the assistant; their wording is not modelled. */
  const SYSTEM_INSTRUCTIONS: string

  /** The seed history of every new conversation file: one system message. */
  const SYS_MESS: seq<Message> := [Chat("system", SYSTEM_INSTRUCTIONS)]

  /** A user turn as `start_and_check` appends it. */
  function UserMsg(text: string): Message
  {
    Chat("user", text)
  }

  /** The seed history is exactly one system-role message. */
  lemma SysMessShape()
    ensures |SYS_MESS| == 1
    ensures StrField(SYS_MESS[0], "role") == Some("system")
    ensures StrField(SYS_MESS[0], "content") == Some(SYSTEM_INSTRUCTIONS)
  {
    ChatFields("system", SYSTEM_INSTRUCTIONS);
  }
}

=== FILE: outgoing.dfy ===
/**
 * `process_and_send_mess`: a reply is cut at its code fences; prose
 * segments and code segments alternate, each is split to Telegram's
 * message size, and code segments are re-wrapped in fences. Sending is left
 * out: the result is the list of messages in the order they are sent.
 */
module Outgoing {
  import opened Text
  import opened Splitter

  /** The Markdown code fence. */
  const FENCE: string := "```"
  /** The size every segment is split to, whatever limit the caller passes. */
  const MESSAGE_LIMIT: int := 4096
  const CODE_PREFIX: string := "```\n"
  const CODE_SUFFIX: string := "\n```"

  /** Messages for segment number `index`: even segments are prose, odd ones are code. */
  function SegmentMessages(index: nat, part: string): (r: seq<string>)
    ensures index % 2 == 1 ==>
              forall i :: 0 <= i < |r| ==> CODE_PREFIX <= r[i] && |r[i]| >= |CODE_SUFFIX|
                                           && r[i][|r[i]| - |CODE_SUFFIX|..] == CODE_SUFFIX
  {
    if index % 2 == 0 then SplitText(part, MESSAGE_LIMIT, "", "")
    else SplitText(part, MESSAGE_LIMIT, CODE_PREFIX, CODE_SUFFIX)
  }

  /** Messages for `segments`, the first of which has number `index`, in segment order. */
  function MessagesFrom(segments: seq<string>, index: nat): seq<string>
    decreases |segments|
  {
    if |segments| == 0 then []
    else SegmentMessages(index, segments[0]) + MessagesFrom(segments[1..], index + 1)
  }

  lemma MessagesFromCons(segments: seq<string>, index: nat)
    requires segments != []
    ensures MessagesFrom(segments, index) == SegmentMessages(index, segments[0]) + MessagesFrom(segments[1..], index + 1)
  {
  }

  /**
   * The messages `process_and_send_mess(event, text, limit)` sends; `limit`
   * is not used. The prose before the first fence always goes out first.
   */
  function OutgoingMessages(text: string, limit: int): (r: seq<string>)
    ensures SplitText(SplitOn(text, FENCE)[0], MESSAGE_LIMIT, "", "") <= r
  {
    var segments := SplitOn(text, FENCE);
    MessagesFromCons(segments, 0);
    MessagesFrom(segments, 0)
  }

  /** A reply without fences is split as prose only. */
  lemma PlainReply(text: string, limit: int)
    requires !Contains(text, FENCE)
    ensures OutgoingMessages(text, limit) == SplitText(text, MESSAGE_LIMIT, "", "")
  {
    SplitOnAbsent(text, FENCE);
    assert [text][1..] == [];
    assert MessagesFrom([text], 0) == SegmentMessages(0, text) + MessagesFrom([], 1);
  }

  /**
   * A reply with one code block: prose before, the fenced code, prose
   * after, in that order, the code wrapped in fences again.
   */
  lemma OneCodeBlock(before: string, code: string, after: string, limit: int)
    requires !Contains(before + "``", FENCE)
    requires !Contains(code + "``", FENCE)
    requires !Contains(after, FENCE)
    ensures OutgoingMessages(before + FENCE + code + FENCE + after, limit)
         == SplitText(before, MESSAGE_LIMIT, "", "")
          + SplitText(code, MESSAGE_LIMIT, CODE_PREFIX, CODE_SUFFIX)
          + SplitText(after, MESSAGE_LIMIT, "", "")
  {
    assert FENCE[..2] == "``";
    assert code + FENCE[..2] == code + "``";
    assert before + FENCE[..2] == before + "``";
    SplitOnAbsent(after, FENCE);
    SplitOnCons(code, FENCE, after);
    assert before + FENCE + code + FENCE + after == before + FENCE + (code + FENCE + after);
    SplitOnCons(before, FENCE, code + FENCE + after);
    assert SplitOn(before + FENCE + code + FENCE + after, FENCE) == [before, code, after];
    MessagesOfThree(before, code, after);
  }

  lemma MessagesOfThree(a: string, b: string, c: string)
    ensures MessagesFrom([a, b, c], 0)
         == SplitText(a, MESSAGE_LIMIT, "", "")
          + SplitText(b, MESSAGE_LIMIT, CODE_PREFIX, CODE_SUFFIX)
          + SplitText(c, MESSAGE_LIMIT, "", "")
  {
    var segs := [a, b, c];
    assert segs[1..] == [b, c] && segs[1..][1..] == [c] && segs[1..][1..][1..] == [];
    assert MessagesFrom([c], 2) == SegmentMessages(2, c) + MessagesFrom([], 3);
  }

  /** A reply that opens with a fence starts with an empty prose message. */
  lemma LeadingFenceSendsEmpty(rest: string, limit: int)
    ensures |OutgoingMessages(FENCE + rest, limit)| >= 1
    ensures OutgoingMessages(FENCE + rest, limit)[0] == ""
  {
    assert FENCE[..2] == "``";
    assert !Contains("``", FENCE) by {
      NoRoomNoContains("``", FENCE);
    }
    assert "" + FENCE[..2] == "``";
    SplitOnCons("", FENCE, rest);
    assert "" + FENCE + rest == FENCE + rest;
  }
}

=== FILE: session.dfy ===
/**
 * The conversation store and the turn preparation of the chat functions.
 *
 * Files are maps: `pointers` holds `logs/chats/session/<chat>.json` (the
 * current session number of each chat) and `histories` holds
 * `logs/chats/history/<chat>_<n>.json` (the messages of session `n`).
 * The language model is an oracle: `summarize` answers the summary request
 * of `over_token`, and `complete(prompt, k)` answers attempt `k` of
 * `get_openai_response`.
 */
module Session {
  import opened Common
  import opened Text
  import opened Messages
  import opened Tokens

  /** Context size of the model. */
  const MAX_TOKEN: int := 128000
  /** Headroom kept free for the reply. */
  const RESERVE: int := 1000
  /** A prompt above this many tokens forces a new session. */
  const BUDGET: int := MAX_TOKEN - RESERVE

  /** Contents of a pointer file: a readable `{"session": n}`, or anything else. */
  datatype PointerRec = Pointer(session: int) | Unreadable

  /** Contents of a history file: a `messages` list, a JSON object without one, or broken JSON. */
  datatype HistoryRec = Stored(messages: seq<Message>) | NoMessagesKey | Corrupt

  /** Names the history file of session `num` of chat `chat`. */
  datatype HistKey = HistKey(chat: int, num: int)

  datatype Store = Store(pointers: map<int, PointerRec>, histories: map<HistKey, HistoryRec>)

  /** A conversation file opened for a turn: the store after opening it, its number, name and prompt. */
  datatype Opened = Opened(store: Store, num: int, key: HistKey, prompt: seq<Message>)

  /** The history file `key` could not be parsed; `store` is the state when that was raised. */
  datatype Broken = Broken(store: Store, key: HistKey)

  /** The session number a readable pointer file holds. */
  function ReadPointer(store: Store, chat: int): Option<int>
  {
    if chat in store.pointers && store.pointers[chat].Pointer? then Some(store.pointers[chat].session)
    else None
  }

  /** What `data.get("messages", sys_mess)` gives for a history file, if it parses. */
  function FileMessages(h: HistoryRec): Option<seq<Message>>
  {
    match h
    case Stored(ms) => Some(ms)
    case NoMessagesKey => Some(SYS_MESS)
    case Corrupt => None
  }

  /** The session `read_existing_conversation` opens: the stored number, or 1 when the pointer is missing or unreadable. */
  function CurrentNum(store: Store, chat: int): int
  {
    if ReadPointer(store, chat).Some? then ReadPointer(store, chat).value else 1
  }

  /** Two stores agree on everything that belongs to other chats. */
  ghost predicate OthersUnchanged(s: Store, s': Store, chat: int)
  {
    && (forall c :: c != chat ==> (c in s.pointers <==> c in s'.pointers))
    && (forall c :: c != chat && c in s.pointers ==> s'.pointers[c] == s.pointers[c])
    && (forall k: HistKey :: k.chat != chat ==> (k in s.histories <==> k in s'.histories))
    && (forall k: HistKey :: k.chat != chat && k in s.histories ==> s'.histories[k] == s.histories[k])
  }

  /**
   * `read_existing_conversation`: a missing or unreadable pointer becomes
   * session 1 and is persisted; a missing history file is created holding
   * `SYS_MESS`; the prompt is the file's `messages`.
   */
  function ReadExisting(store: Store, chat: int): (r: Result<Opened, Broken>)
    ensures r.Ok? ==> r.value.num == (if ReadPointer(store, chat).Some? then ReadPointer(store, chat).value else 1)
    ensures r.Ok? ==> r.value.key == HistKey(chat, r.value.num)
    ensures r.Ok? ==> ReadPointer(r.value.store, chat) == Some(r.value.num)
    ensures r.Ok? ==> r.value.key in r.value.store.histories
    ensures r.Ok? ==> FileMessages(r.value.store.histories[r.value.key]) == Some(r.value.prompt)
    ensures r.Ok? && r.value.key !in store.histories ==> r.value.prompt == SYS_MESS
    ensures r.Ok? ==> r.value.store.histories.Keys == store.histories.Keys + {r.value.key}
    ensures r.Ok? ==> forall k :: k in store.histories ==> r.value.store.histories[k] == store.histories[k]
    ensures r.Err? <==> HistKey(chat, CurrentNum(store, chat)) in store.histories
                        && store.histories[HistKey(chat, CurrentNum(store, chat))] == Corrupt
    ensures r.Err? ==> r.error.key == HistKey(chat, CurrentNum(store, chat))
    ensures r.Err? ==> r.error.store == (if ReadPointer(store, chat).Some? then store
                                         else store.(pointers := store.pointers[chat := Pointer(1)]))
    ensures r.Ok? ==> OthersUnchanged(store, r.value.store, chat)
  {
    var n := if ReadPointer(store, chat).Some? then ReadPointer(store, chat).value else 1;
    var s1 := if ReadPointer(store, chat).Some? then store
              else store.(pointers := store.pointers[chat := Pointer(1)]);
    var key := HistKey(chat, n);
    var s2 := if key in s1.histories then s1
              else s1.(histories := s1.histories[key := Stored(SYS_MESS)]);
    match FileMessages(s2.histories[key])
    case Some(ms) => Ok(Opened(s2, n, key, ms))
    case None => Err(Broken(s2, key))
  }

  /** Reading a conversation a second time finds it as the first read left it. */
  lemma ReadExistingStable(store: Store, chat: int)
    requires ReadExisting(store, chat).Ok?
    ensures ReadExisting(ReadExisting(store, chat).value.store, chat) == ReadExisting(store, chat)
  {
    var o := ReadExisting(store, chat).value;
    assert o.store.histories[o.key := Stored(SYS_MESS)] == o.store.histories || o.key in o.store.histories;
    assert o.store.pointers[chat := Pointer(1)] == o.store.pointers || ReadPointer(o.store, chat).Some?;
  }

  /** Persisting a prompt and reading the conversation back gives that prompt. */
  lemma PersistThenRead(store: Store, chat: int, n: int, prompt: seq<Message>)
    requires ReadPointer(store, chat) == Some(n)
    ensures var s := store.(histories := store.histories[HistKey(chat, n) := Stored(prompt)]);
            ReadExisting(s, chat) == Ok(Opened(s, n, HistKey(chat, n), prompt))
  {
  }

  /** The instruction `over_token` appends before asking for a summary. */
  const SUMMARY_REQUEST: string := "Кратко перескажи весь предыдущий разговор"
  /** The text that introduces the summary in the new history. */
  const SUMMARY_PREFIX: string := "Краткое резюме прошлой беседы: "

  /** The summariser's answer: the summary text, or any raised exception. */
  datatype Summary = Summarized(text: string) | SummaryFailed

  /** `prompt[:10]` after the summary request has been appended. */
  function SummaryInput(prompt: seq<Message>): (r: seq<Message>)
    ensures |r| == if |prompt| + 1 <= 10 then |prompt| + 1 else 10
    ensures r <= prompt + [UserMsg(SUMMARY_REQUEST)]
  {
    var p := prompt + [UserMsg(SUMMARY_REQUEST)];
    if |p| <= 10 then p else p[..10]
  }

  /** Once the prompt has ten or more messages, the summary request is cut off from the input. */
  lemma SummaryRequestDropped(prompt: seq<Message>)
    requires |prompt| >= 10
    ensures SummaryInput(prompt) == prompt[..10]
  {
  }

  /** The history `over_token` writes after a successful summary. */
  function SummaryHistory(summary: string): seq<Message>
  {
    SYS_MESS + [Chat("system", SUMMARY_PREFIX + summary)]
  }

  /**
   * `over_token`: on a summary, overwrite `key` with `SYS_MESS` and one
   * system message carrying the summary; on failure write nothing.
   */
  function OverToken(store: Store, key: HistKey, prompt: seq<Message>, summarize: seq<Message> -> Summary): (r: Store)
    ensures r.pointers == store.pointers
    ensures summarize(SummaryInput(prompt)).SummaryFailed? ==> r == store
    ensures summarize(SummaryInput(prompt)).Summarized? ==>
              && key in r.histories
              && r.histories[key].Stored?
              && |r.histories[key].messages| == 2
              && r.histories[key].messages[..1] == SYS_MESS
              && StrField(r.histories[key].messages[1], "role") == Some("system")
              && StrField(r.histories[key].messages[1], "content")
                 == Some(SUMMARY_PREFIX + summarize(SummaryInput(prompt)).text)
    ensures r.histories.Keys == store.histories.Keys + {key} || r == store
    ensures forall k :: k != key && k in store.histories ==> k in r.histories && r.histories[k] == store.histories[k]
  {
    match summarize(SummaryInput(prompt))
    case SummaryFailed => store
    case Summarized(text) =>
      ChatFields("system", SUMMARY_PREFIX + text);
      store.(histories := store.histories[key := Stored(SummaryHistory(text))])
  }

  /** The loop state of `start_and_check`: the prompt ends with the new user message. */
  predicate TurnReady(o: Opened, chat: int, message: string)
  {
    && o.key == HistKey(chat, o.num)
    && ReadPointer(o.store, chat) == Some(o.num)
    && o.key in o.store.histories
    && FileMessages(o.store.histories[o.key]).Some?
    && o.prompt == FileMessages(o.store.histories[o.key]).value + [UserMsg(message)]
  }

  /**
   * One pass of the `start_and_check` loop body: bump and persist the
   * pointer, summarise into the OLD file, reopen the conversation (now the
   * new session) and append the user message again.
   */
  function Rollover(o: Opened, chat: int, message: string, summarize: seq<Message> -> Summary): (r: Result<Opened, Broken>)
    requires o.key == HistKey(chat, o.num) && o.key in o.store.histories
    ensures r.Ok? ==> r.value.num == o.num + 1 && TurnReady(r.value, chat, message)
    ensures HistKey(chat, o.num + 1) !in o.store.histories ==>
              r.Ok? && r.value.prompt == SYS_MESS + [UserMsg(message)]
    ensures r.Ok? ==> r.value.store.histories.Keys == o.store.histories.Keys + {r.value.key}
    ensures r.Ok? && summarize(SummaryInput(o.prompt)).Summarized? ==>
              r.value.store.histories[o.key] == Stored(SummaryHistory(summarize(SummaryInput(o.prompt)).text))
    ensures r.Ok? && summarize(SummaryInput(o.prompt)).SummaryFailed? ==>
              r.value.store.histories[o.key] == o.store.histories[o.key]
    ensures HistKey(chat, o.num + 1) in o.store.histories ==>
              (r.Ok? <==> FileMessages(o.store.histories[HistKey(chat, o.num + 1)]).Some?)
    ensures HistKey(chat, o.num + 1) in o.store.histories && r.Ok? ==>
              && r.value.store.histories[HistKey(chat, o.num + 1)] == o.store.histories[HistKey(chat, o.num + 1)]
              && r.value.prompt == FileMessages(o.store.histories[HistKey(chat, o.num + 1)]).value + [UserMsg(message)]
    ensures r.Err? ==> r.error.key == HistKey(chat, o.num + 1)
    ensures r.Err? ==> r.error.store == OverToken(o.store.(pointers := o.store.pointers[chat := Pointer(o.num + 1)]),
                                                  o.key, o.prompt, summarize)
    ensures r.Err? ==> ReadPointer(r.error.store, chat) == Some(o.num + 1)
    ensures r.Ok? ==> OthersUnchanged(o.store, r.value.store, chat)
  {
    var s1 := o.store.(pointers := o.store.pointers[chat := Pointer(o.num + 1)]);
    var s2 := OverToken(s1, o.key, o.prompt, summarize);
    match ReadExisting(s2, chat)
    case Ok(o') => Ok(o'.(prompt := o'.prompt + [UserMsg(message)]))
    case Err(b) => Err(b)
  }

  /** History files of `chat` numbered above `n`: sessions a rollover may still land on. */
  function LaterKeys(store: Store, chat: int, n: int): set<HistKey>
  {
    set k | k in store.histories.Keys && k.chat == chat && k.num > n
  }

  /** The prompt of a fresh session fits the budget. */
  predicate FreshFits(encLen: string -> nat, message: string)
  {
    NumTokens(encLen, SYS_MESS + [UserMsg(message)]) <= BUDGET
  }

  /** Loop measure of `start_and_check`: every rollover lowers it while the prompt is over budget. */
  function RolloverMeasure(o: Opened, chat: int, encLen: string -> nat): nat
  {
    2 * |LaterKeys(o.store, chat, o.num)| + (if NumTokens(encLen, o.prompt) > BUDGET then 1 else 0)
  }

  lemma RolloverDecreases(o: Opened, chat: int, message: string, encLen: string -> nat, summarize: seq<Message> -> Summary)
    requires o.key == HistKey(chat, o.num) && o.key in o.store.histories
    requires FreshFits(encLen, message)
    requires NumTokens(encLen, o.prompt) > BUDGET
    requires Rollover(o, chat, message, summarize).Ok?
    ensures RolloverMeasure(Rollover(o, chat, message, summarize).value, chat, encLen) < RolloverMeasure(o, chat, encLen)
  {
    var o' := Rollover(o, chat, message, summarize).value;
    LaterKeysAfterRollover(o.store, o'.store, chat, o.num);
  }

  /** A rollover adds only the next session's file, so at most that one later file is used up. */
  lemma LaterKeysAfterRollover(s: Store, s': Store, chat: int, num: int)
    requires s'.histories.Keys == s.histories.Keys + {HistKey(chat, num + 1)}
    ensures HistKey(chat, num + 1) in s.histories ==>
              |LaterKeys(s', chat, num + 1)| == |LaterKeys(s, chat, num)| - 1
    ensures HistKey(chat, num + 1) !in s.histories ==>
              LaterKeys(s', chat, num + 1) == LaterKeys(s, chat, num)
  {
    var next := HistKey(chat, num + 1);
    var before := LaterKeys(s, chat, num);
    var after := LaterKeys(s', chat, num + 1);
    if next in s.histories {
      assert after == before - {next};
      assert next in before;
    } else {
      assert after == before;
    }
  }

  /** The conversation as `start_and_check` first opens it, with the user message appended. */
  function Opening(store: Store, chat: int, message: string): (r: Result<Opened, Broken>)
    ensures r.Ok? ==> TurnReady(r.value, chat, message)
    ensures r.Err? <==> HistKey(chat, CurrentNum(store, chat)) in store.histories
                        && store.histories[HistKey(chat, CurrentNum(store, chat))] == Corrupt
    ensures r.Err? ==> r.error.key == HistKey(chat, CurrentNum(store, chat))
    ensures r.Err? ==> r.error.store == (if ReadPointer(store, chat).Some? then store
                                         else store.(pointers := store.pointers[chat := Pointer(1)]))
  {
    match ReadExisting(store, chat)
    case Ok(o) => Ok(o.(prompt := o.prompt + [UserMsg(message)]))
    case Err(b) => Err(b)
  }

  /** `n` passes of the loop body, stopping at the first error. */
  function Rollovers(o: Opened, chat: int, message: string, summarize: seq<Message> -> Summary, n: nat): (r: Result<Opened, Broken>)
    requires o.key == HistKey(chat, o.num) && o.key in o.store.histories
    ensures r.Ok? ==> r.value.key == HistKey(chat, r.value.num) && r.value.key in r.value.store.histories
    ensures r.Ok? ==> r.value.num == o.num + n
    decreases n
  {
    if n == 0 then Ok(o)
    else match Rollover(o, chat, message, summarize)
      case Ok(o') => Rollovers(o', chat, message, summarize, n - 1)
      case Err(b) => Err(b)
  }

  /** Pass `n + 1` starts from where the first `n` passes left the conversation. */
  lemma {:induction false} RolloversStep(o: Opened, chat: int, message: string, summarize: seq<Message> -> Summary, n: nat)
    requires o.key == HistKey(chat, o.num) && o.key in o.store.histories
    requires Rollovers(o, chat, message, summarize, n).Ok?
    ensures Rollovers(o, chat, message, summarize, n + 1)
         == Rollover(Rollovers(o, chat, message, summarize, n).value, chat, message, summarize)
    decreases n
  {
    if n > 0 {
      var o1 := Rollover(o, chat, message, summarize).value;
      RolloversStep(o1, chat, message, summarize, n - 1);
    }
  }

  /** Each of the first `n` passes found the prompt over budget and rolled over without error. */
  predicate OverBudgetBefore(o: Opened, chat: int, message: string, encLen: string -> nat,
                             summarize: seq<Message> -> Summary, n: nat)
    requires o.key == HistKey(chat, o.num) && o.key in o.store.histories
  {
    forall m: nat :: m < n ==>
      && Rollovers(o, chat, message, summarize, m).Ok?
      && NumTokens(encLen, Rollovers(o, chat, message, summarize, m).value.prompt) > BUDGET
  }

  /**
   * `start_and_check`: open the conversation, append the user message, and
   * roll over to a new session while the prompt is over budget. The result
   * is the first number of passes whose prompt fits; in particular a prompt
   * that already fits is kept as opened. The loop is only shown to end when
   * a fresh session's prompt fits (`FreshFits`).
   */
  method StartAndCheck(store: Store, chat: int, message: string, encLen: string -> nat, summarize: seq<Message> -> Summary)
    returns (r: Result<Opened, Broken>)
    requires FreshFits(encLen, message)
    ensures r.Ok? ==> NumTokens(encLen, r.value.prompt) <= BUDGET
    ensures r.Ok? ==> TurnReady(r.value, chat, message)
    ensures r.Ok? ==> r.value.prompt[|r.value.prompt| - 1] == UserMsg(message)
    ensures r.Ok? ==> r.value.num >= (if ReadPointer(store, chat).Some? then ReadPointer(store, chat).value else 1)
    ensures r.Ok? ==> store.histories.Keys <= r.value.store.histories.Keys
    ensures r.Ok? ==> OthersUnchanged(store, r.value.store, chat)
    ensures Opening(store, chat, message).Err? ==> r == Opening(store, chat, message)
    ensures r.Ok? ==> Opening(store, chat, message).Ok?
    ensures Opening(store, chat, message).Ok? ==>
              exists n: nat ::
                && Rollovers(Opening(store, chat, message).value, chat, message, summarize, n) == r
                && OverBudgetBefore(Opening(store, chat, message).value, chat, message, encLen, summarize, n)
  {
    var first := ReadExisting(store, chat);
    if first.Err? {
      return Err(first.error);
    }
    var cur := first.value.(prompt := first.value.prompt + [UserMsg(message)]);
    ghost var start := cur;
    ghost var passes: nat := 0;
    assert Opening(store, chat, message) == Ok(start);
    while NumTokens(encLen, cur.prompt) > BUDGET
      invariant TurnReady(cur, chat, message)
      invariant cur.num >= first.value.num
      invariant store.histories.Keys <= cur.store.histories.Keys
      invariant OthersUnchanged(store, cur.store, chat)
      invariant Rollovers(start, chat, message, summarize, passes) == Ok(cur)
      invariant OverBudgetBefore(start, chat, message, encLen, summarize, passes)
      decreases RolloverMeasure(cur, chat, encLen)
    {
      var next := Rollover(cur, chat, message, summarize);
      OnePass(start, cur, chat, message, encLen, summarize, passes);
      if next.Err? {
        r := Err(next.error);
        assert Rollovers(start, chat, message, summarize, passes + 1) == r;
        return;
      }
      RolloverDecreases(cur, chat, message, encLen, summarize);
      cur := next.value;
      passes := passes + 1;
    }
    r := Ok(cur);
    assert Rollovers(start, chat, message, summarize, passes) == r;
  }

  /** One more pass over an over-budget prompt extends the passes that found it over budget. */
  lemma OnePass(start: Opened, cur: Opened, chat: int, message: string, encLen: string -> nat,
                summarize: seq<Message> -> Summary, passes: nat)
    requires start.key == HistKey(chat, start.num) && start.key in start.store.histories
    requires Rollovers(start, chat, message, summarize, passes) == Ok(cur)
    requires OverBudgetBefore(start, chat, message, encLen, summarize, passes)
    requires NumTokens(encLen, cur.prompt) > BUDGET
    ensures Rollovers(start, chat, message, summarize, passes + 1) == Rollover(cur, chat, message, summarize)
    ensures OverBudgetBefore(start, chat, message, encLen, summarize, passes + 1)
  {
    RolloversStep(start, chat, message, summarize, passes);
    OverBudgetExtend(start, chat, message, encLen, summarize, passes);
  }

  lemma OverBudgetExtend(start: Opened, chat: int, message: string, encLen: string -> nat,
                         summarize: seq<Message> -> Summary, passes: nat)
    requires start.key == HistKey(chat, start.num) && start.key in start.store.histories
    requires OverBudgetBefore(start, chat, message, encLen, summarize, passes)
    requires Rollovers(start, chat, message, summarize, passes).Ok?
    requires NumTokens(encLen, Rollovers(start, chat, message, summarize, passes).value.prompt) > BUDGET
    ensures OverBudgetBefore(start, chat, message, encLen, summarize, passes + 1)
  {
    forall m: nat | m < passes + 1
      ensures Rollovers(start, chat, message, summarize, m).Ok?
      ensures NumTokens(encLen, Rollovers(start, chat, message, summarize, m).value.prompt) > BUDGET
    {
      if m < passes {
        assert OverBudgetBefore(start, chat, message, encLen, summarize, passes);
      }
    }
  }

  /**
   * When a fresh session's prompt is itself over budget and no later file
   * exists, every pass lands on a fresh over-budget session again: once the
   * loop of `start_and_check` has rolled over, or when the opened prompt is
   * already over budget, it never ends.
   */
  lemma {:induction false} RolloverForever(o: Opened, chat: int, message: string, encLen: string -> nat,
                                           summarize: seq<Message> -> Summary, n: nat)
    requires o.key == HistKey(chat, o.num) && o.key in o.store.histories
    requires LaterKeys(o.store, chat, o.num) == {}
    requires !FreshFits(encLen, message)
    ensures Rollovers(o, chat, message, summarize, n).Ok?
    ensures n > 0 ==> NumTokens(encLen, Rollovers(o, chat, message, summarize, n).value.prompt) > BUDGET
    ensures NumTokens(encLen, o.prompt) > BUDGET ==>
              NumTokens(encLen, Rollovers(o, chat, message, summarize, n).value.prompt) > BUDGET
    ensures Rollovers(o, chat, message, summarize, n).value.num == o.num + n
    decreases n
  {
    if n > 0 {
      var next := HistKey(chat, o.num + 1);
      assert next !in LaterKeys(o.store, chat, o.num);
      var o' := Rollover(o, chat, message, summarize).value;
      assert o'.store.histories.Keys == o.store.histories.Keys + {next};
      assert LaterKeys(o'.store, chat, o'.num) == {};
      RolloverForever(o', chat, message, encLen, summarize, n - 1);
    }
  }

  /** One answer of the completion endpoint. */
  datatype Completion = Completed(reply: Message, totalTokens: int) | ConnectionError | OtherError

  /** Attempts `get_openai_response` makes before giving up on connection errors. */
  const MAX_TRIALS: nat := 5

  const CONNECTION_TROUBLE: string := "🔌 Проблемы с соединением... Попробуй через минуту"
  const APOLOGY: string := "Ой, OpenAI сейчас подтормаживает... Попробуй ещё раз через минуту 😏"

  /** What `get_openai_response` returns: an answer with the tokens left, or one of two fixed texts. */
  datatype Response = Answer(text: string, left: int) | NoConnection | Apology

  /** How an answer ends: the closing of the tokens-left note. */
  const TOKENS_LEFT_TAIL: string := " токенов осталось)__"

  /** The string handed to the sender; the two fixed texts cannot be mistaken for an answer. */
  function Render(r: Response): (s: string)
    ensures r.Answer? ==> r.text <= s && |s| >= |TOKENS_LEFT_TAIL| && s[|s| - |TOKENS_LEFT_TAIL|..] == TOKENS_LEFT_TAIL
    ensures r.Answer? ==> s != CONNECTION_TROUBLE && s != APOLOGY
    ensures r.NoConnection? <==> s == CONNECTION_TROUBLE
  {
    match r
    case Answer(text, left) => text + "\n\n__(" + IntToDecimal(left) + TOKENS_LEFT_TAIL
    case NoConnection => CONNECTION_TROUBLE
    case Apology => APOLOGY
  }

  /** An answer ends with the count of tokens left, and its text comes first. */
  lemma RenderAnswer(text: string, left: int)
    ensures text <= Render(Answer(text, left))
    ensures var r := Render(Answer(text, left));
            |r| >= |TOKENS_LEFT_TAIL| && r[|r| - |TOKENS_LEFT_TAIL|..] == TOKENS_LEFT_TAIL
  {
  }

  /** Number of leading connection errors among the first `MAX_TRIALS` attempts. */
  function Failures(prompt: seq<Message>, complete: (seq<Message>, nat) -> Completion): (d: nat)
    ensures d <= MAX_TRIALS
    ensures forall k :: 0 <= k < d ==> complete(prompt, k).ConnectionError?
    ensures d < MAX_TRIALS ==> !complete(prompt, d).ConnectionError?
  {
    FailuresFrom(prompt, complete, 0)
  }

  function FailuresFrom(prompt: seq<Message>, complete: (seq<Message>, nat) -> Completion, k: nat): (d: nat)
    requires k <= MAX_TRIALS
    ensures k <= d <= MAX_TRIALS
    ensures forall j :: k <= j < d ==> complete(prompt, j).ConnectionError?
    ensures d < MAX_TRIALS ==> !complete(prompt, d).ConnectionError?
    decreases MAX_TRIALS - k
  {
    if k == MAX_TRIALS || !complete(prompt, k).ConnectionError? then k
    else FailuresFrom(prompt, complete, k + 1)
  }

  /**
   * `get_openai_response`: retry on connection errors up to five attempts;
   * any other error gives the apology at once; a reply is appended to the
   * prompt, the whole prompt is written to `key`, and the answer reports
   * `MAX_TOKEN - usage` tokens left.
   */
  method GetOpenAIResponse(store: Store, key: HistKey, prompt: seq<Message>, complete: (seq<Message>, nat) -> Completion)
    returns (store': Store, resp: Response, calls: nat)
    ensures calls <= MAX_TRIALS
    ensures calls == if Failures(prompt, complete) < MAX_TRIALS then Failures(prompt, complete) + 1 else MAX_TRIALS
    ensures resp.NoConnection? <==> Failures(prompt, complete) == MAX_TRIALS
    ensures !resp.Answer? ==> store' == store
    ensures resp.Answer? <==>
              (&& Failures(prompt, complete) < MAX_TRIALS
               && complete(prompt, Failures(prompt, complete)).Completed?
               && StrField(complete(prompt, Failures(prompt, complete)).reply, "content").Some?)
    ensures resp.Answer? ==>
              var c := complete(prompt, Failures(prompt, complete));
              && resp.text == Strip(StrField(c.reply, "content").value)
              && resp.left == MAX_TOKEN - c.totalTokens
              && store' == store.(histories := store.histories[key := Stored(prompt + [c.reply])])
  {
    var trial: nat := 0;
    while true
      invariant trial < MAX_TRIALS
      invariant forall j :: 0 <= j < trial ==> complete(prompt, j).ConnectionError?
      decreases MAX_TRIALS - trial
    {
      var c := complete(prompt, trial);
      match c {
        case Completed(reply, used) =>
          match StrField(reply, "content") {
            case Some(content) =>
              var text := Strip(content);
              store' := store.(histories := store.histories[key := Stored(prompt + [reply])]);
              return store', Answer(text, MAX_TOKEN - used), trial + 1;
            case None =>
              return store, Apology, trial + 1;
          }
        case ConnectionError =>
          trial := trial + 1;
          if trial >= MAX_TRIALS {
            return store, NoConnection, trial;
          }
        case OtherError =>
          return store, Apology, trial + 1;
      }
    }
  }
}

=== FILE: splitter.dfy ===
/**
 * `split_text`: a reply longer than the limit is cut at sentence and
 * paragraph boundaries and packed greedily into pieces shorter than the
 * limit; each piece is stripped and wrapped in a prefix and a suffix.
 */
module Splitter {
  import opened Common
  import opened Text

  /**
   * A boundary the pattern `(\n\n|\.\s|\?\s|\!\s)` matches at position `i`:
   * a blank line, or sentence punctuation followed by whitespace.
   */
  predicate BoundaryAt(t: string, i: int)
    requires 0 <= i < |t| - 1
  {
    (t[i] == '\n' && t[i + 1] == '\n') || ((t[i] == '.' || t[i] == '?' || t[i] == '!') && IsSpace(t[i + 1]))
  }

  /** A matched boundary: exactly the two characters the pattern consumed. */
  predicate IsSeparator(t: string)
  {
    |t| == 2 && BoundaryAt(t, 0)
  }

  /** No boundary starts at any position of `t`. */
  predicate NoSeparator(t: string)
  {
    forall i :: 0 <= i < |t| - 1 ==> !BoundaryAt(t, i)
  }

  /** No boundary starts in `piece` or at its last character running into `next`: `next` is the leftmost match. */
  predicate LeftmostBefore(piece: string, next: string)
  {
    next == [] || NoSeparator(piece + next[..1])
  }

  /**
   * What `re.split` with a capturing group yields: pieces free of boundaries
   * at even positions, the matched boundaries at odd positions, each the
   * leftmost match after its piece, and all of them together spell the text.
   */
  predicate BoundarySplit(r: seq<string>, s: string)
  {
    && |r| % 2 == 1
    && Concat(r) == s
    && (forall i :: 0 <= i < |r| && i % 2 == 1 ==> IsSeparator(r[i]))
    && (forall i :: 0 <= i < |r| && i % 2 == 0 ==> NoSeparator(r[i]))
    && (forall i :: 0 <= i < |r| - 1 && i % 2 == 0 ==> LeftmostBefore(r[i], r[i + 1]))
  }

  /**
   * `re.split(r'(\n\n|\.\s|\?\s|\!\s)', s)`: scanning left to right, each
   * leftmost boundary ends the current piece and is kept as a part itself.
   */
  function SentenceParts(s: string): (r: seq<string>)
    ensures BoundarySplit(r, s)
    decreases |s|
  {
    if |s| < 2 then
      assert Concat([s]) == s + Concat<char>([]);
      [s]
    else if BoundaryAt(s, 0) then
      var rest := SentenceParts(s[2..]);
      SplitAtBoundary(s, rest);
      ["", s[..2]] + rest
    else
      var rest := SentenceParts(s[1..]);
      SplitInsidePiece(s, rest);
      [[s[0]] + rest[0]] + rest[1..]
  }

  lemma SplitAtBoundary(s: string, rest: seq<string>)
    requires |s| >= 2 && BoundaryAt(s, 0)
    requires BoundarySplit(rest, s[2..])
    ensures BoundarySplit(["", s[..2]] + rest, s)
  {
    var r := ["", s[..2]] + rest;
    assert r[1..] == [s[..2]] + rest;
    assert Concat(r) == "" + Concat(r[1..]);
    assert ([s[..2]] + rest)[1..] == rest;
    assert Concat(r[1..]) == s[..2] + Concat(rest);
    assert s == s[..2] + s[2..];
    forall i | 2 <= i < |r| ensures r[i] == rest[i - 2] {}
    assert LeftmostBefore(r[0], r[1]) by {
      assert r[0] + r[1][..1] == [s[0]];
    }
  }

  lemma SplitInsidePiece(s: string, rest: seq<string>)
    requires |s| >= 2 && !BoundaryAt(s, 0)
    requires BoundarySplit(rest, s[1..])
    ensures BoundarySplit([[s[0]] + rest[0]] + rest[1..], s)
  {
    var first := [s[0]] + rest[0];
    var r := [first] + rest[1..];
    assert Concat(rest) == rest[0] + Concat(rest[1..]);
    assert Concat(r) == first + Concat(rest[1..]);
    assert s == [s[0]] + s[1..];
    assert rest[0] <= s[1..];
    PrependNoBoundary(s, rest[0]);
    forall i | 1 <= i < |r| ensures r[i] == rest[i] {}
    if |r| > 1 {
      var x := rest[0] + rest[1][..1];
      assert Concat(rest[1..]) == rest[1] + Concat(rest[2..]);
      assert x <= s[1..];
      PrependNoBoundary(s, x);
      assert first + r[1][..1] == [s[0]] + x;
    }
  }

  /** Text `x` that the scan reaches right after a position where no boundary starts keeps no boundary with that character in front. */
  lemma PrependNoBoundary(s: string, x: string)
    requires |s| >= 2 && !BoundaryAt(s, 0)
    requires x <= s[1..] && NoSeparator(x)
    ensures NoSeparator([s[0]] + x)
  {
    var first := [s[0]] + x;
    forall i | 0 <= i < |first| - 1 ensures !BoundaryAt(first, i) {
      if i == 0 {
        assert first[0] == s[0] && first[1] == s[1];
      } else {
        assert first[i] == x[i - 1] && first[i + 1] == x[i];
        assert !BoundaryAt(x, i - 1);
      }
    }
  }

  /** A group is shorter than the limit unless it holds a single part. */
  predicate Bounded(run: seq<string>, limit: int)
  {
    |run| <= 1 || |Concat(run)| < limit
  }

  /** Every group after the first starts with the part that would have overflowed its predecessor. */
  predicate Greedy(runs: seq<seq<string>>, limit: int)
  {
    forall i :: 1 <= i < |runs| ==> |runs[i]| >= 1 && |Concat(runs[i - 1])| + |runs[i][0]| >= limit
  }

  predicate AllBounded(runs: seq<seq<string>>, limit: int)
  {
    forall i :: 0 <= i < |runs| ==> Bounded(runs[i], limit)
  }

  /**
   * The loop of `split_text` from the group `cur` onwards: a part joins the
   * current group while the group stays shorter than `limit`, otherwise the
   * group is emitted and the part starts the next one.
   */
  function PackFrom(cur: seq<string>, parts: seq<string>, limit: int): (r: seq<seq<string>>)
    ensures |r| >= 1 && cur <= r[0]
    ensures Concat(r) == cur + parts
    ensures Bounded(cur, limit) ==> AllBounded(r, limit)
    ensures Greedy(r, limit)
    decreases |parts|
  {
    if |parts| == 0 then
      assert Concat([cur]) == cur + Concat<string>([]);
      [cur]
    else if |Concat(cur)| + |parts[0]| < limit then
      var r := PackFrom(cur + [parts[0]], parts[1..], limit);
      PackExtend(cur, parts, limit, r);
      r
    else
      var rest := PackFrom([parts[0]], parts[1..], limit);
      PackEmit(cur, parts, limit, rest);
      [cur] + rest
  }

  lemma PackExtend(cur: seq<string>, parts: seq<string>, limit: int, r: seq<seq<string>>)
    requires |parts| > 0 && |Concat(cur)| + |parts[0]| < limit
    requires |r| >= 1 && cur + [parts[0]] <= r[0]
    requires Concat(r) == cur + [parts[0]] + parts[1..]
    requires Bounded(cur + [parts[0]], limit) ==> AllBounded(r, limit)
    ensures cur <= r[0]
    ensures Concat(r) == cur + parts
    ensures Bounded(cur, limit) ==> AllBounded(r, limit)
  {
    SnocParts(cur, parts);
    SnocBounded(cur, parts[0], limit);
  }

  lemma SnocParts(cur: seq<string>, parts: seq<string>)
    requires |parts| > 0
    ensures cur + [parts[0]] + parts[1..] == cur + parts
  {
    assert parts == [parts[0]] + parts[1..];
  }

  lemma SnocBounded(cur: seq<string>, p: string, limit: int)
    requires |Concat(cur)| + |p| < limit
    ensures Bounded(cur + [p], limit)
  {
    ConcatSnoc(cur, p);
  }

  lemma PackEmit(cur: seq<string>, parts: seq<string>, limit: int, rest: seq<seq<string>>)
    requires |parts| > 0 && |Concat(cur)| + |parts[0]| >= limit
    requires |rest| >= 1 && [parts[0]] <= rest[0]
    requires Concat(rest) == [parts[0]] + parts[1..]
    requires AllBounded(rest, limit)
    requires Greedy(rest, limit)
    ensures Concat([cur] + rest) == cur + parts
    ensures Bounded(cur, limit) ==> AllBounded([cur] + rest, limit)
    ensures Greedy([cur] + rest, limit)
  {
    var r := [cur] + rest;
    assert r[1..] == rest;
    assert Concat(r) == cur + Concat(rest);
    assert [parts[0]] + parts[1..] == parts;
    if Bounded(cur, limit) {
      EmitBounded(cur, rest, limit);
    }
    EmitGreedy(cur, rest, limit);
  }

  lemma EmitBounded(cur: seq<string>, rest: seq<seq<string>>, limit: int)
    requires Bounded(cur, limit) && AllBounded(rest, limit)
    ensures AllBounded([cur] + rest, limit)
  {
    var r := [cur] + rest;
    forall i | 0 <= i < |r| ensures Bounded(r[i], limit) {
      if i > 0 {
        assert r[i] == rest[i - 1];
      }
    }
  }

  lemma EmitGreedy(cur: seq<string>, rest: seq<seq<string>>, limit: int)
    requires |rest| >= 1 && |rest[0]| >= 1 && |Concat(cur)| + |rest[0][0]| >= limit
    requires Greedy(rest, limit)
    ensures Greedy([cur] + rest, limit)
  {
    var r := [cur] + rest;
    forall i | 1 <= i < |r| ensures |r[i]| >= 1 && |Concat(r[i - 1])| + |r[i][0]| >= limit {
      if i == 1 {
        assert r[1] == rest[0];
      } else {
        assert r[i] == rest[i - 1] && r[i - 1] == rest[i - 2];
      }
    }
  }

  /** The groups `split_text` forms over `parts`, each a run of consecutive parts. */
  function Runs(parts: seq<string>, limit: int): seq<seq<string>>
  {
    PackFrom([], parts, limit)
  }

  /** The unstripped text of each group. */
  function RunTexts(runs: seq<seq<string>>): (r: seq<string>)
    ensures |r| == |runs|
    ensures forall i :: 0 <= i < |r| ==> r[i] == Concat(runs[i])
  {
    if |runs| == 0 then [] else [Concat(runs[0])] + RunTexts(runs[1..])
  }

  lemma {:induction false} RunTextsConcat(runs: seq<seq<string>>)
    ensures Concat(RunTexts(runs)) == Concat(Concat(runs))
    decreases |runs|
  {
    if |runs| > 0 {
      RunTextsConcat(runs[1..]);
      ConcatAppend(runs[0], Concat(runs[1..]));
    }
  }

  /** The unstripped groups `split_text` forms on a long text. */
  function Groups(text: string, limit: int): seq<string>
  {
    RunTexts(Runs(SentenceParts(text), limit))
  }

  /**
   * The groups are consecutive runs of the boundary split, in order: put
   * back together they give the text; a group is shorter than `limit` unless
   * it is a single part; and a group is closed only when its next part
   * would have reached `limit`.
   */
  lemma GroupsProperties(text: string, limit: int)
    ensures Concat(Groups(text, limit)) == text
    ensures Concat(Runs(SentenceParts(text), limit)) == SentenceParts(text)
    ensures forall i :: 0 <= i < |Runs(SentenceParts(text), limit)| ==>
              |Runs(SentenceParts(text), limit)[i]| <= 1 || |Groups(text, limit)[i]| < limit
    ensures forall i :: 1 <= i < |Runs(SentenceParts(text), limit)| ==>
              |Groups(text, limit)[i - 1]| + |Runs(SentenceParts(text), limit)[i][0]| >= limit
  {
    RunsCover(SentenceParts(text), limit);
    GroupsConcat(text, limit);
    GroupsBounded(text, limit);
    GroupsGreedy(text, limit);
  }

  lemma GroupsConcat(text: string, limit: int)
    ensures Concat(Groups(text, limit)) == text
  {
    var parts := SentenceParts(text);
    RunsCover(parts, limit);
    RunTextsConcat(Runs(parts, limit));
  }

  lemma GroupsBounded(text: string, limit: int)
    ensures forall i :: 0 <= i < |Runs(SentenceParts(text), limit)| ==>
              |Runs(SentenceParts(text), limit)[i]| <= 1 || |Groups(text, limit)[i]| < limit
  {
    RunsCover(SentenceParts(text), limit);
  }

  lemma GroupsGreedy(text: string, limit: int)
    ensures forall i :: 1 <= i < |Runs(SentenceParts(text), limit)| ==>
              |Groups(text, limit)[i - 1]| + |Runs(SentenceParts(text), limit)[i][0]| >= limit
  {
    RunsCover(SentenceParts(text), limit);
  }

  /** The groups over `parts` put back together give `parts`, bounded and greedily closed. */
  lemma RunsCover(parts: seq<string>, limit: int)
    ensures Concat(Runs(parts, limit)) == parts
    ensures AllBounded(Runs(parts, limit), limit)
    ensures Greedy(Runs(parts, limit), limit)
  {
    assert Bounded([], limit);
    assert [] + parts == parts;
  }

  /** A piece body: non-empty and already stripped. */
  predicate IsBody(b: string)
  {
    b != [] && Strip(b) == b
  }

  /** Stripped non-blank groups, in order: the bodies of the pieces. */
  function Bodies(groups: seq<string>): (r: seq<string>)
    ensures |r| <= |groups|
    ensures forall i :: 0 <= i < |r| ==> IsBody(r[i])
    ensures forall b :: b in r <==> exists i :: 0 <= i < |groups| && !Blank(groups[i]) && b == Strip(groups[i])
  {
    if |groups| == 0 then []
    else if Blank(groups[0]) then Bodies(groups[1..])
    else
      var body := Strip(groups[0]);
      StripIdempotent(groups[0]);
      assert IsBody(body);
      [body] + Bodies(groups[1..])
  }

  /** Bodies keep the order of the groups: the bodies of two runs of groups are those of each in turn. */
  lemma {:induction false} BodiesAppend(a: seq<string>, b: seq<string>)
    ensures Bodies(a + b) == Bodies(a) + Bodies(b)
    decreases |a|
  {
    if |a| == 0 {
      assert a + b == b;
    } else {
      assert (a + b)[0] == a[0];
      assert (a + b)[1..] == a[1..] + b;
      BodiesAppend(a[1..], b);
    }
  }

  /** Each body between the prefix and the suffix. */
  function Wrap(bodies: seq<string>, prefix: string, suffix: string): (r: seq<string>)
    ensures |r| == |bodies|
    ensures forall i :: 0 <= i < |r| ==> r[i] == prefix + bodies[i] + suffix
  {
    if |bodies| == 0 then [] else [prefix + bodies[0] + suffix] + Wrap(bodies[1..], prefix, suffix)
  }

  /** `split_text(text, limit, prefix, suffix)`, collected into a list. */
  function SplitText(text: string, limit: int, prefix: string, suffix: string): (r: seq<string>)
    ensures |text| <= limit ==> r == [prefix + text + suffix]
    ensures |text| > limit ==>
              forall i :: 0 <= i < |r| ==>
                && prefix <= r[i]
                && |r[i]| > |prefix| + |suffix|
                && r[i][|r[i]| - |suffix|..] == suffix
                && Strip(r[i][|prefix|..|r[i]| - |suffix|]) == r[i][|prefix|..|r[i]| - |suffix|]
  {
    if |text| <= limit then [prefix + text + suffix]
    else
      var r := Wrap(Bodies(Groups(text, limit)), prefix, suffix);
      assert forall i :: 0 <= i < |r| ==> r[i][|prefix|..|r[i]| - |suffix|] == Bodies(Groups(text, limit))[i];
      r
  }

  /** Whitespace-only text longer than the limit yields no piece at all. */
  lemma {:induction false} BlankGroupsNoBodies(groups: seq<string>)
    requires forall i :: 0 <= i < |groups| ==> Blank(groups[i])
    ensures Bodies(groups) == []
    decreases |groups|
  {
    if |groups| > 0 {
      BlankGroupsNoBodies(groups[1..]);
    }
  }

  /** Over the limit, pieces drop only blank groups: their bodies are the stripped non-blank groups. */
  lemma SplitTextLong(text: string, limit: int, prefix: string, suffix: string)
    requires |text| > limit
    ensures SplitText(text, limit, prefix, suffix) == Wrap(Bodies(Groups(text, limit)), prefix, suffix)
    ensures Concat(Groups(text, limit)) == text
  {
    GroupsProperties(text, limit);
  }
}

=== FILE: text.dfy ===
/**
 * The few Python string primitives the bot relies on: `str.isspace` (also
 * what `\s` matches in a `str` regular expression), `strip`, `lower`,
 * `in` on strings, `sep.join`, `split(sep)`, `split()` and `str(int)`.
 */
module Text {
  import opened Common

  /** Python's `str.isspace()`: the characters CPython treats as whitespace. */
  predicate IsSpace(c: char)
  {
    || ('\U{9}' <= c <= '\U{D}')
    || ('\U{1C}' <= c <= '\U{1F}')
    || c == ' '
    || c == '\U{85}'
    || c == '\U{A0}'
    || c == '\U{1680}'
    || ('\U{2000}' <= c <= '\U{200A}')
    || c == '\U{2028}'
    || c == '\U{2029}'
    || c == '\U{202F}'
    || c == '\U{205F}'
    || c == '\U{3000}'
  }

  /** Every character is whitespace: what Python means by `not s.strip()`. */
  predicate Blank(s: string)
  {
    forall i :: 0 <= i < |s| ==> IsSpace(s[i])
  }

  /** Number of whitespace characters `s.lstrip()` removes. */
  function LeadingSpaces(s: string): (k: nat)
    ensures k <= |s|
    ensures forall i :: 0 <= i < k ==> IsSpace(s[i])
    ensures k < |s| ==> !IsSpace(s[k])
  {
    if s == [] || !IsSpace(s[0]) then 0 else 1 + LeadingSpaces(s[1..])
  }

  /** Number of whitespace characters `s.rstrip()` removes. */
  function TrailingSpaces(s: string): (k: nat)
    ensures k <= |s|
    ensures forall i :: |s| - k <= i < |s| ==> IsSpace(s[i])
    ensures k < |s| ==> !IsSpace(s[|s| - k - 1])
  {
    if s == [] || !IsSpace(s[|s| - 1]) then 0 else 1 + TrailingSpaces(s[..|s| - 1])
  }

  /** `s.strip()`: whitespace removed from both ends. */
  function Strip(s: string): (r: string)
    ensures |r| <= |s|
    ensures r == [] || (!IsSpace(r[0]) && !IsSpace(r[|r| - 1]))
    ensures r == [] <==> Blank(s)
  {
    var a := LeadingSpaces(s);
    if a == |s| then []
    else
      var b := |s| - TrailingSpaces(s);
      assert a < b;
      s[a..b]
  }

  /** `s.strip()` removes a blank prefix and a blank suffix and nothing else. */
  lemma StripSplits(s: string) returns (front: string, back: string)
    ensures s == front + Strip(s) + back
    ensures Blank(front) && Blank(back)
  {
    var a := LeadingSpaces(s);
    var b := if a == |s| then |s| else |s| - TrailingSpaces(s);
    assert Strip(s) == s[a..b];
    front, back := s[..a], s[b..];
    SliceSplit(s, a, b);
    BlankSlice(s, 0, a);
    BlankSlice(s, b, |s|);
  }

  lemma SliceSplit(s: string, a: nat, b: nat)
    requires a <= b <= |s|
    ensures s == s[..a] + s[a..b] + s[b..]
  {
  }

  lemma BlankSlice(s: string, a: nat, b: nat)
    requires a <= b <= |s|
    requires forall i :: a <= i < b ==> IsSpace(s[i])
    ensures Blank(s[a..b])
  {
  }

  /** A string with no whitespace at either end is its own `strip()`. */
  lemma StripTrimmed(s: string)
    requires s == [] || (!IsSpace(s[0]) && !IsSpace(s[|s| - 1]))
    ensures Strip(s) == s
  {
  }

  /** `strip()` is idempotent. */
  lemma StripIdempotent(s: string)
    ensures Strip(Strip(s)) == Strip(s)
  {
    StripTrimmed(Strip(s));
  }

  /** Python's `str.lower()` on one character, for ASCII and basic Cyrillic. */
  function LowerChar(c: char): char
  {
    if 'A' <= c <= 'Z' then (c as int + 32) as char
    else if '\U{410}' <= c <= '\U{42F}' then (c as int + 32) as char
    else if '\U{400}' <= c <= '\U{40F}' then (c as int + 80) as char
    else c
  }

  /** `s.lower()`, character by character. */
  function Lower(s: string): (r: string)
    ensures |r| == |s|
  {
    seq(|s|, i requires 0 <= i < |s| => LowerChar(s[i]))
  }

  /** Python's `p in s` for strings: `p` occurs in `s` at some position. */
  predicate Contains(s: string, p: string)
    decreases |s|
  {
    p <= s || (s != [] && Contains(s[1..], p))
  }

  /** `sep.join(parts)`. */
  function Join(sep: string, parts: seq<string>): string
  {
    if |parts| == 0 then ""
    else if |parts| == 1 then parts[0]
    else parts[0] + sep + Join(sep, parts[1..])
  }

  /** `s.split(sep)` for a non-empty separator: cut at every leftmost occurrence. */
  function SplitOn(s: string, sep: string): (r: seq<string>)
    requires |sep| > 0
    ensures |r| >= 1
    ensures r[0] <= s
    ensures Join(sep, r) == s
    ensures forall i :: 0 <= i < |r| ==> !Contains(r[i], sep)
    decreases |s|
  {
    if |s| < |sep| then
      NoRoomNoContains(s, sep);
      [s]
    else if sep <= s then
      var rest := SplitOn(s[|sep|..], sep);
      assert s == sep + s[|sep|..];
      [""] + rest
    else
      var rest := SplitOn(s[1..], sep);
      var first := [s[0]] + rest[0];
      assert first <= s;
      [first] + rest[1..]
  }

  lemma NoRoomNoContains(s: string, sep: string)
    requires |s| < |sep|
    ensures !Contains(s, sep)
    decreases |s|
  {
    if s != [] {
      NoRoomNoContains(s[1..], sep);
    }
  }

  /** Text without the separator is its own single piece. */
  lemma {:induction false} SplitOnAbsent(s: string, sep: string)
    requires |sep| > 0 && !Contains(s, sep)
    ensures SplitOn(s, sep) == [s]
    decreases |s|
  {
    if |s| >= |sep| {
      SplitOnAbsent(s[1..], sep);
      assert [s[0]] + s[1..] == s;
    }
  }

  /** When the first occurrence of `sep` comes right after `a`, `split` cuts off `a` as the first piece. */
  lemma {:induction false} SplitOnCons(a: string, sep: string, rest: string)
    requires |sep| > 0
    requires !Contains(a + sep[..|sep| - 1], sep)
    ensures SplitOn(a + sep + rest, sep) == [a] + SplitOn(rest, sep)
    decreases |a|
  {
    var s := a + sep + rest;
    var guard := a + sep[..|sep| - 1];
    if |a| == 0 {
      assert s == sep + rest;
      assert s[|sep|..] == rest;
    } else {
      assert s[..|sep|] == guard[..|sep|];
      assert !(sep <= s);
      assert guard[1..] == a[1..] + sep[..|sep| - 1];
      assert s[1..] == a[1..] + sep + rest;
      SplitOnCons(a[1..], sep, rest);
      assert [s[0]] + a[1..] == a;
    }
  }

  /** A maximal run of non-whitespace characters, as `split()` yields them. */
  predicate IsWord(w: string)
  {
    w != [] && forall i :: 0 <= i < |w| ==> !IsSpace(w[i])
  }

  /** Length of the run of non-whitespace characters that starts `s`. */
  function WordLen(s: string): (k: nat)
    ensures k <= |s|
    ensures forall i :: 0 <= i < k ==> !IsSpace(s[i])
    ensures k == |s| || IsSpace(s[k])
  {
    if s == [] || IsSpace(s[0]) then 0 else 1 + WordLen(s[1..])
  }

  /** `s.split()` with no argument: the whitespace-separated words of `s`. */
  function Words(s: string): (r: seq<string>)
    ensures forall i :: 0 <= i < |r| ==> IsWord(r[i])
    decreases |s|
  {
    if s == [] then []
    else if IsSpace(s[0]) then Words(s[1..])
    else
      var k := WordLen(s);
      [s[..k]] + Words(s[k..])
  }

  /** Whitespace-only text has no words. */
  lemma {:induction false} WordsBlank(s: string)
    requires Blank(s)
    ensures Words(s) == []
    decreases |s|
  {
    if s != [] {
      WordsBlank(s[1..]);
    }
  }

  /** A whitespace character ends the word it follows, wherever that word starts. */
  lemma {:induction false} WordLenExtend(a: string, rest: string)
    requires rest == [] || IsSpace(rest[0])
    ensures WordLen(a + rest) == WordLen(a)
    decreases |a|
  {
    if a == [] {
      assert a + rest == rest;
    } else if !IsSpace(a[0]) {
      assert (a + rest)[1..] == a[1..] + rest;
      WordLenExtend(a[1..], rest);
    }
  }

  /** A whitespace character separates: the text on either side of it is split independently. */
  lemma {:induction false} WordsAtSpace(a: string, c: char, b: string)
    requires IsSpace(c)
    ensures Words(a + [c] + b) == Words(a) + Words(b)
    decreases |a|
  {
    var s := a + [c] + b;
    if a == [] {
      assert s[1..] == b;
    } else if IsSpace(a[0]) {
      assert s[1..] == a[1..] + [c] + b;
      WordsAtSpace(a[1..], c, b);
    } else {
      var k := WordLen(a);
      WordsAtSpaceStep(a, c, b);
      WordsAtSpace(a[k..], c, b);
    }
  }

  /** The word that starts `a` is also the word that starts `a + [c] + b`. */
  lemma WordsAtSpaceStep(a: string, c: char, b: string)
    requires IsSpace(c) && a != [] && !IsSpace(a[0])
    ensures WordLen(a) >= 1
    ensures Words(a + [c] + b) == [a[..WordLen(a)]] + Words(a[WordLen(a)..] + [c] + b)
  {
    var s := a + [c] + b;
    var k := WordLen(a);
    assert s == a + ([c] + b);
    WordLenExtend(a, [c] + b);
    assert s[..k] == a[..k];
    assert s[k..] == a[k..] + [c] + b;
  }

  /** Text without whitespace is a single word. */
  lemma WordsOfWord(w: string)
    requires IsWord(w)
    ensures Words(w) == [w]
  {
    WordsOfJoin([w]);
  }

  lemma {:induction false} WordLenOfWord(w: string, rest: string)
    requires IsWord(w)
    requires rest == [] || IsSpace(rest[0])
    ensures WordLen(w + rest) == |w|
    decreases |w|
  {
    if |w| > 1 {
      assert (w + rest)[1..] == w[1..] + rest;
      WordLenOfWord(w[1..], rest);
    } else {
      assert (w + rest)[1..] == rest;
    }
  }

  /** Splitting words joined by single spaces gives the words back. */
  lemma {:induction false} WordsOfJoin(ws: seq<string>)
    requires forall i :: 0 <= i < |ws| ==> IsWord(ws[i])
    ensures Words(Join(" ", ws)) == ws
    decreases |ws|
  {
    if |ws| == 1 {
      var w := ws[0];
      WordLenOfWord(w, "");
      assert w + "" == w;
      assert w[|w|..] == [];
    } else if |ws| > 1 {
      var w := ws[0];
      var tail := Join(" ", ws[1..]);
      var s := w + " " + tail;
      assert s == w + (" " + tail);
      WordLenOfWord(w, " " + tail);
      assert s[..|w|] == w;
      assert s[|w|..] == " " + tail;
      assert (" " + tail)[1..] == tail;
      WordsOfJoin(ws[1..]);
      assert ws == [w] + ws[1..];
    }
  }

  /** The decimal digit for `d`. */
  function DigitChar(d: nat): char
    requires d < 10
  {
    ('0' as int + d) as char
  }

  predicate IsDigits(s: string)
  {
    forall i :: 0 <= i < |s| ==> '0' <= s[i] <= '9'
  }

  /** The number a string of decimal digits denotes. */
  function DecimalValue(s: string): nat
    requires IsDigits(s)
  {
    if s == [] then 0 else DecimalValue(s[..|s| - 1]) * 10 + (s[|s| - 1] as int - '0' as int)
  }

  /** `str(n)` for a natural number: its shortest decimal spelling. */
  function NatToDecimal(n: nat): (r: string)
    ensures |r| >= 1 && IsDigits(r)
    ensures DecimalValue(r) == n
    ensures r[0] == '0' ==> n == 0
    ensures n == 0 ==> r == "0"
  {
    if n < 10 then [DigitChar(n)]
    else
      var r := NatToDecimal(n / 10) + [DigitChar(n % 10)];
      assert r[..|r| - 1] == NatToDecimal(n / 10);
      r
  }

  /** `str(i)` for any integer: a minus sign before the magnitude when negative, and no leading zero. */
  function IntToDecimal(i: int): (r: string)
    ensures i >= 0 ==> |r| >= 1 && IsDigits(r) && DecimalValue(r) == i
    ensures i >= 0 ==> (r[0] == '0' ==> r == "0")
    ensures i < 0 ==> |r| >= 2 && r[0] == '-' && IsDigits(r[1..]) && DecimalValue(r[1..]) == -i
    ensures i < 0 ==> r[1] != '0'
  {
    if i < 0 then "-" + NatToDecimal(-i) else NatToDecimal(i)
  }
}

=== FILE: tokens.dfy ===
/**
 * The token estimate `num_tokens_from_messages`: 3 for the reply primer,
 * and per message 4, plus the encoded length of each string value, plus the
 * encoded length of `str(item)` for each dict inside a list value, minus 1
 * for a `name` key. The encoder is a parameter `encLen`.
 */
module Tokens {
  import opened Messages

  /** Tokens charged per message before its fields. */
  const PER_MESSAGE: int := 4
  /** Tokens charged once per request for the reply primer. */
  const PRIMER: int := 3

  function ItemsCost(encLen: string -> nat, items: seq<Item>): nat
  {
    if |items| == 0 then 0
    else (if items[0].DictItem? then encLen(items[0].repr) else 0) + ItemsCost(encLen, items[1..])
  }

  function ValueCost(encLen: string -> nat, v: Value): nat
  {
    match v
    case Str(s) => encLen(s)
    case List(items) => ItemsCost(encLen, items)
    case OtherValue => 0
  }

  function FieldsCost(encLen: string -> nat, fields: seq<(string, Value)>): int
  {
    if |fields| == 0 then 0
    else ValueCost(encLen, fields[0].1) - (if fields[0].0 == "name" then 1 else 0)
         + FieldsCost(encLen, fields[1..])
  }

  function MessageCost(encLen: string -> nat, m: Message): int
  {
    PER_MESSAGE + FieldsCost(encLen, m.fields)
  }

  function MessagesCost(encLen: string -> nat, ms: seq<Message>): int
  {
    if |ms| == 0 then 0 else MessageCost(encLen, ms[0]) + MessagesCost(encLen, ms[1..])
  }

  /** `num_tokens_from_messages(ms)` with the encoder's length function `encLen`. */
  function NumTokens(encLen: string -> nat, ms: seq<Message>): (r: int)
    ensures ms == [] ==> r == PRIMER
  {
    MessagesCost(encLen, ms) + PRIMER
  }

  /** The per-message costs add up: the primer is counted once. */
  lemma {:induction false} NumTokensAppend(encLen: string -> nat, a: seq<Message>, b: seq<Message>)
    ensures NumTokens(encLen, a + b) == NumTokens(encLen, a) + NumTokens(encLen, b) - PRIMER
  {
    MessagesCostAppend(encLen, a, b);
  }

  lemma {:induction false} MessagesCostAppend(encLen: string -> nat, a: seq<Message>, b: seq<Message>)
    ensures MessagesCost(encLen, a + b) == MessagesCost(encLen, a) + MessagesCost(encLen, b)
    decreases |a|
  {
    if |a| == 0 {
      assert a + b == b;
    } else {
      assert (a + b)[1..] == a[1..] + b;
      MessagesCostAppend(encLen, a[1..], b);
    }
  }

  /** Number of fields whose key is `name`. */
  function NameCount(fields: seq<(string, Value)>): nat
  {
    if |fields| == 0 then 0 else (if fields[0].0 == "name" then 1 else 0) + NameCount(fields[1..])
  }

  lemma {:induction false} FieldsCostLower(encLen: string -> nat, fields: seq<(string, Value)>)
    ensures FieldsCost(encLen, fields) >= -(NameCount(fields) as int)
    decreases |fields|
  {
    if |fields| > 0 {
      FieldsCostLower(encLen, fields[1..]);
    }
  }

  lemma {:induction false} NameCountDistinct(fields: seq<(string, Value)>)
    requires forall i, j :: 0 <= i < j < |fields| ==> fields[i].0 != fields[j].0
    ensures NameCount(fields) <= 1
    decreases |fields|
  {
    if |fields| > 0 {
      NameCountDistinct(fields[1..]);
      if fields[0].0 == "name" {
        NoNameAfter(fields[1..]);
      }
    }
  }

  lemma {:induction false} NoNameAfter(fields: seq<(string, Value)>)
    requires forall i :: 0 <= i < |fields| ==> fields[i].0 != "name"
    ensures NameCount(fields) == 0
    decreases |fields|
  {
    if |fields| > 0 {
      NoNameAfter(fields[1..]);
    }
  }

  /** A dict message costs at least 3 tokens: only one `name` key can be subtracted. */
  lemma MessageCostAtLeast(encLen: string -> nat, m: Message)
    requires DistinctKeys(m)
    ensures MessageCost(encLen, m) >= PER_MESSAGE - 1
  {
    FieldsCostLower(encLen, m.fields);
    NameCountDistinct(m.fields);
  }

  /** Appending any message raises the estimate by at least 3. */
  lemma AppendRaises(encLen: string -> nat, ms: seq<Message>, m: Message)
    requires DistinctKeys(m)
    ensures NumTokens(encLen, ms + [m]) >= NumTokens(encLen, ms) + 3
  {
    NumTokensAppend(encLen, ms, [m]);
    MessageCostAtLeast(encLen, m);
    assert MessagesCost(encLen, [m]) == MessageCost(encLen, m) + MessagesCost(encLen, [m][1..]);
  }

  /** Appending a `{"role", "content"}` message costs 4 plus both encoded strings. */
  lemma AppendChat(encLen: string -> nat, ms: seq<Message>, role: string, content: string)
    ensures NumTokens(encLen, ms + [Chat(role, content)])
         == NumTokens(encLen, ms) + PER_MESSAGE + encLen(role) + encLen(content)
  {
    var m := Chat(role, content);
    NumTokensAppend(encLen, ms, [m]);
    assert MessagesCost(encLen, [m]) == MessageCost(encLen, m) + MessagesCost(encLen, [m][1..]);
    assert m.fields[1..][1..] == [];
    assert "role"[0] != "name"[0] && "content"[0] != "name"[0];
    assert FieldsCost(encLen, m.fields[1..]) == encLen(content);
  }
}

=== FILE: word_chunks.dfy ===
/**
 * The chunker of the index builder (`build_faiss`): each raw document's
 * text is split into words, and every block of `CHUNK_SIZE` consecutive
 * words becomes one chunk, its words joined by single spaces. The
 * embedding model and the vector index are not modelled.
 */
module BuildFaiss {
  import opened Common
  import opened Text

  /** Words per chunk. */
  const CHUNK_SIZE: nat := 900

  /** Every element is a word, as `split()` yields them. */
  predicate AllWords(ws: seq<string>)
  {
    forall k :: 0 <= k < |ws| ==> IsWord(ws[k])
  }

  /** The word blocks `words[i:i + CHUNK_SIZE]` for `i` in `range(0, len(words), CHUNK_SIZE)`. */
  function Blocks(ws: seq<string>): (bs: seq<seq<string>>)
    ensures Concat(bs) == ws
    ensures |bs| == (|ws| + CHUNK_SIZE - 1) / CHUNK_SIZE
    ensures forall i :: 0 <= i < |bs| ==> 0 < |bs[i]| <= CHUNK_SIZE
    ensures forall i :: 0 <= i < |bs| - 1 ==> |bs[i]| == CHUNK_SIZE
    ensures AllWords(ws) ==> forall i :: 0 <= i < |bs| ==> AllWords(bs[i])
    decreases |ws|
  {
    if ws == [] then []
    else if |ws| <= CHUNK_SIZE then
      assert Concat([ws]) == ws + Concat([ws][1..]);
      [ws]
    else
      var rest := Blocks(ws[CHUNK_SIZE..]);
      var bs := [ws[..CHUNK_SIZE]] + rest;
      assert bs[1..] == rest;
      assert ws[..CHUNK_SIZE] + ws[CHUNK_SIZE..] == ws;
      assert forall i :: 1 <= i < |bs| ==> bs[i] == rest[i - 1];
      bs
  }

  /** `chunk_text(text)`: each word block joined by single spaces, in order. */
  function ChunkText(text: string): (r: seq<string>)
    ensures |r| == (|Words(text)| + CHUNK_SIZE - 1) / CHUNK_SIZE
    ensures Blank(text) ==> r == []
  {
    if Blank(text) then WordsBlank(text); []
    else
      var bs := Blocks(Words(text));
      seq(|bs|, i requires 0 <= i < |bs| => Join(" ", bs[i]))
  }

  /** The words of each chunk are exactly the block it was built from. */
  lemma ChunkWords(text: string)
    ensures var bs := Blocks(Words(text));
      && |ChunkText(text)| == |bs|
      && forall i :: 0 <= i < |bs| ==> Words(ChunkText(text)[i]) == bs[i]
  {
    var bs := Blocks(Words(text));
    if Blank(text) {
      WordsBlank(text);
    } else {
      forall i | 0 <= i < |bs| ensures Words(ChunkText(text)[i]) == bs[i] {
        WordsOfJoin(bs[i]);
      }
    }
  }

  /** The words of a chunk, chunk by chunk. */
  function ChunkWordLists(chunks: seq<string>): (r: seq<seq<string>>)
    ensures |r| == |chunks|
    ensures forall i :: 0 <= i < |r| ==> r[i] == Words(chunks[i])
  {
    seq(|chunks|, i requires 0 <= i < |chunks| => Words(chunks[i]))
  }

  /** Splitting the chunks again and concatenating gives back the words of the text. */
  lemma ChunksRoundTrip(text: string)
    ensures Concat(ChunkWordLists(ChunkText(text))) == Words(text)
  {
    ChunkWords(text);
    assert ChunkWordLists(ChunkText(text)) == Blocks(Words(text));
  }

  /** Every chunk has at most `CHUNK_SIZE` words, and every chunk but the last exactly that many. */
  lemma ChunkSizes(text: string)
    ensures var r := ChunkText(text);
      && (forall i :: 0 <= i < |r| ==> 0 < |Words(r[i])| <= CHUNK_SIZE)
      && (forall i :: 0 <= i < |r| - 1 ==> |Words(r[i])| == CHUNK_SIZE)
  {
    ChunkWords(text);
  }

  /** A raw document as the extraction step saved it. */
  datatype RawDoc = RawDoc(source: string, text: string)

  /** A chunk record of the index: the document's source and the chunk text. */
  datatype ChunkRecord = ChunkRecord(source: string, text: string)

  /** The records of one document, in chunk order. */
  function DocRecords(d: RawDoc): (r: seq<ChunkRecord>)
    ensures |r| == |ChunkText(d.text)|
    ensures forall i :: 0 <= i < |r| ==> r[i] == ChunkRecord(d.source, ChunkText(d.text)[i])
  {
    var cs := ChunkText(d.text);
    seq(|cs|, i requires 0 <= i < |cs| => ChunkRecord(d.source, cs[i]))
  }

  /** The loop of `main`: the chunk records of every document, in document order. */
  function BuildChunks(docs: seq<RawDoc>): seq<ChunkRecord>
  {
    FlatMap(DocRecords, docs)
  }

  /** Every record carries the source of a document and holds one of that document's chunks. */
  lemma {:induction false} BuildChunksProvenance(docs: seq<RawDoc>)
    ensures var r := BuildChunks(docs);
      forall k :: 0 <= k < |r| ==> exists i :: 0 <= i < |docs| && r[k].source == docs[i].source && r[k].text in ChunkText(docs[i].text)
    decreases |docs|
  {
    if docs != [] {
      BuildChunksProvenance(docs[1..]);
      ConsChunks(DocRecords(docs[0]), BuildChunks(docs[1..]), docs);
    }
  }

  lemma ConsChunks(head: seq<ChunkRecord>, rest: seq<ChunkRecord>, docs: seq<RawDoc>)
    requires |docs| >= 1 && head == DocRecords(docs[0])
    requires forall k :: 0 <= k < |rest| ==> exists i :: 0 <= i < |docs[1..]| && rest[k].source == docs[1..][i].source && rest[k].text in ChunkText(docs[1..][i].text)
    ensures forall k :: 0 <= k < |head + rest| ==> exists i :: 0 <= i < |docs| && (head + rest)[k].source == docs[i].source && (head + rest)[k].text in ChunkText(docs[i].text)
  {
    var r := head + rest;
    forall k | 0 <= k < |r|
      ensures exists i :: 0 <= i < |docs| && r[k].source == docs[i].source && r[k].text in ChunkText(docs[i].text)
    {
      if k < |head| {
        assert r[k] == head[k];
        assert r[k].source == docs[0].source && r[k].text in ChunkText(docs[0].text);
      } else {
        assert r[k] == rest[k - |head|];
        var i :| 0 <= i < |docs[1..]| && r[k].source == docs[1..][i].source && r[k].text in ChunkText(docs[1..][i].text);
        assert docs[1..][i] == docs[i + 1];
      }
    }
  }

  /** Records follow document order: building over two lists is building over each in turn. */
  lemma BuildChunksAppend(a: seq<RawDoc>, b: seq<RawDoc>)
    ensures BuildChunks(a + b) == BuildChunks(a) + BuildChunks(b)
  {
    FlatMapAppend(DocRecords, a, b);
  }

}
